=== FILE: README.md ===
# Sheet-region extraction of the XLSX controller

This project models the part of the Microsoft-utilities service that turns
a rectangle of an Excel sheet into data. The two endpoints `extract/json`
and `extract/csv` both call `extractData(sheet, range, orientation)`, which
runs in five steps:

1. It checks a range expression such as `A1:C1`. The expression must match
   `[A-Z]+\d+:[A-Z]+\d+` as a whole.
2. It converts the column letters with `index`, which reads them in
   bijective base 26. The sum is a `double` that is narrowed back to `int`
   after each letter, and that narrowing saturates at the `int` maximum
   instead of wrapping around. It converts the row digits
   with `Integer.parseInt`. Each bound is then shifted to a 0-based index.
3. It refuses reversed bounds. It also refuses a portrait request that spans
   several rows and a landscape request that spans several columns.
4. It serializes cells with `cellToStr`.
5. It scans the sheet:
   - **portrait** (the orientation is "portrait" in any letter case): from
     the seed row downward over a fixed column band, up to the first missing
     or blank row;
   - **landscape** (every other orientation string): rightward over a fixed
     row band, up to the first column that is blank in every row.

The endpoints then write the rows either as CSV or as a JSON envelope that
carries `rows`, `cols` and `items`.

Modules (one file each):

- `Results` (`results.dfy`): `Option` and `Result`.
- `ColumnLetters` (`column_letters.dfy`): `index`, including Java's
  saturating narrowing of the `double` sum to `int`, with its inverse and
  ordering laws.
- `RangeParser` (`range_parser.dfy`):
  - the whole-string match, the four `find` calls and `parseInt`;
  - the error order;
  - orientation handling, with case folding;
  - the exception texts.
- `Cells` (`cells.dfy`): `cellToStr` over a cell datatype. Number and date
  rendering are supplied by a `Renderer` parameter.
- `Extraction` (`extraction.dfy`): the portrait and landscape scans and
  `extractData`. A sheet is a finite map from row index to row, and a row
  is a map from column index to cell.
- `Output` (`output.dfy`):
  - the CSV builder, with a reader for its output;
  - the JSON envelope;
  - the request defaults of the two endpoints.
- `SampleSheet` (`sample_sheet.dfy`): one workbook consistent with the
  endpoint tests: text cells A1..C2 on the first sheet, nothing below row 2
  and nothing right of column C. The tests only fix columns A..C of the
  first three rows; the rest is assumed. The model shows what both
  endpoints return for this workbook.

## Model

| member | source | states |
|---|---|---|
| ColumnLetters.Index | src/main/java/gov/cdc/foundation/controller/XLSXController.java:359-372 | `index` is 0 exactly for the empty run, never exceeds the `int` maximum, equals the exact base-26 column number exactly when that number fits in an `int`, and is exactly the `int` maximum when the number is larger (the saturating narrowing) |
| ColumnLetters.IndexLoop | src/main/java/gov/cdc/foundation/controller/XLSXController.java:363-370 | the positional loop (`position` counting up, each partial sum narrowed to `int`) returns the same value as `Index` |
| ColumnLetters.LettersRoundTrip | src/main/java/gov/cdc/foundation/controller/XLSXController.java:359-372 | every positive column number is spelled by exactly one letter run: converting the number to letters and back gives the number |
| ColumnLetters.ColumnNumberRoundTrip | src/main/java/gov/cdc/foundation/controller/XLSXController.java:359-372 | every letter run is recovered from its column number |
| ColumnLetters.ColumnNumberInjective | src/main/java/gov/cdc/foundation/controller/XLSXController.java:359-372 | two different letter runs name different columns |
| ColumnLetters.LengthBounds | src/main/java/gov/cdc/foundation/controller/XLSXController.java:359-372 | a run of m letters names a column from the first m-letter column (A, AA, AAA, ...) up to just before the first (m+1)-letter column |
| ColumnLetters.ShortRunsAreExact | src/main/java/gov/cdc/foundation/controller/XLSXController.java:359-372 | for runs of at most six letters narrowing the `double` sum never clamps, so `index` is the exact column number |
| ColumnLetters.ColumnOrder | src/main/java/gov/cdc/foundation/controller/XLSXController.java:359-372 | the exact column number follows spreadsheet order: shorter runs first, equal lengths alphabetically, exactly when the column number is smaller |
| ColumnLetters.IndexOrder | src/main/java/gov/cdc/foundation/controller/XLSXController.java:282-288 | the column-order check, which compares the clamped `index` values, agrees with spreadsheet order as long as both columns fit in an `int`, that is up to FXSHRXW |
| ColumnLetters.LastExactColumn | src/main/java/gov/cdc/foundation/controller/XLSXController.java:359-372 | FXSHRXW is column 2^31-1, the `int` maximum, and the next column FXSHRXX already clamps to that same index |
| ColumnLetters.LongRunsClamp | src/main/java/gov/cdc/foundation/controller/XLSXController.java:359-372 | every run of eight or more letters has index equal to the `int` maximum |
| ColumnLetters.KnownColumns | src/main/java/gov/cdc/foundation/controller/XLSXController.java:359-372 | reference values: "" → 0, A → 1, Z → 26, AA → 27, AZ → 52, BA → 53, XFD → 16384 |
| RangeParser.RunEnd | src/main/java/gov/cdc/foundation/controller/XLSXController.java:277 | a `+` quantifier takes the maximal run of its character class starting at a position |
| RangeParser.MatchEntire | src/main/java/gov/cdc/foundation/controller/XLSXController.java:277-279 | a successful whole-string match yields four non-empty letter/digit parts that spell the input back exactly |
| RangeParser.MatchEntireComplete | src/main/java/gov/cdc/foundation/controller/XLSXController.java:277-279 | every string of the form letters, digits, colon, letters, digits matches, with exactly those parts |
| RangeParser.FindsPickTokens | src/main/java/gov/cdc/foundation/controller/XLSXController.java:282-285 | after a whole match, the colon is found right after the start digits, and the four `find` calls return exactly the four matched parts |
| RangeParser.FindSkips | src/main/java/gov/cdc/foundation/controller/XLSXController.java:282-285 | `find` passes over characters outside its class |
| RangeParser.DecimalRoundTrip | src/main/java/gov/cdc/foundation/controller/XLSXController.java:284-285 | the row digits are read as the decimal number they spell: every natural number's decimal spelling reads back as that number |
| RangeParser.LeadingZero | src/main/java/gov/cdc/foundation/controller/XLSXController.java:284-285 | leading zeros in the row digits do not change the row number |
| RangeParser.ParseInt | src/main/java/gov/cdc/foundation/controller/XLSXController.java:284-285 | `Integer.parseInt` succeeds exactly when the digits' value fits in an `int`, and then returns the decimal value the digits spell |
| RangeParser.FromTokens | src/main/java/gov/cdc/foundation/controller/XLSXController.java:282-290 | an accepted range has 0 ≤ startCol ≤ endCol and -1 ≤ startRow ≤ endRow, all below the `int` maximum |
| RangeParser.ParseRange | src/main/java/gov/cdc/foundation/controller/XLSXController.java:277-290 | the syntax error is raised exactly when the whole-string match fails, and an accepted range is ordered and bounded |
| RangeParser.ParseWellFormed | src/main/java/gov/cdc/foundation/controller/XLSXController.java:282-290 | for a matched range, each outcome holds exactly under its condition: a row overflow first, then reversed columns, then reversed rows, and otherwise every bound is its 1-based number minus one |
| RangeParser.ParseSpelled | src/main/java/gov/cdc/foundation/controller/XLSXController.java:277-290 | a string spelled from well-formed parts parses as those parts |
| RangeParser.SingleRowExample | src/main/java/gov/cdc/foundation/controller/XLSXController.java:277-290 | `A1:C1` parses to columns 0..2 of row 0 |
| RangeParser.ReversedColumnsExample | src/main/java/gov/cdc/foundation/controller/XLSXController.java:287-288 | `C1:A1` is refused for its column order |
| RangeParser.ReversedRowsExample | src/main/java/gov/cdc/foundation/controller/XLSXController.java:289-290 | `A2:A1` is refused for its row order |
| RangeParser.DashExample | src/main/java/gov/cdc/foundation/controller/XLSXController.java:277-279 | `A1-C1`, without the colon, is refused as malformed |
| RangeParser.RowZeroBecomesMinusOne | src/main/java/gov/cdc/foundation/controller/XLSXController.java:284-285 | row 0 passes the pattern and becomes row index -1 |
| RangeParser.ClampedColumnsCompareEqual | src/main/java/gov/cdc/foundation/controller/XLSXController.java:282-288 | `BAAAAAAA1:AAAAAAAA1` is accepted although its end column comes before its start column, because both eight-letter runs clamp to the same index |
| RangeParser.OrientationCase | src/main/java/gov/cdc/foundation/controller/XLSXController.java:291-298 | orientation words are matched in any letter case; "landscape" is not portrait, and the empty string is neither |
| RangeParser.CheckRequest | src/main/java/gov/cdc/foundation/controller/XLSXController.java:277-294 | a parse error passes through. Portrait refuses a range of several rows, and landscape one of several columns, each exactly in that case. Any other orientation string is not checked further. A range that parses and passes both orientation tests is accepted as parsed, so the only refusals of a parsed range are the two orientation errors. An accepted portrait range has one row and an accepted landscape range one column |
| RangeParser.RowOrderMessageNamesColumns | src/main/java/gov/cdc/foundation/controller/XLSXController.java:287-290 | as written, a reversed row range such as `A2:A1` is reported with the text of a reversed column range |
| RangeParser.IntendedMessagesDiffer | src/main/java/gov/cdc/foundation/controller/XLSXController.java:287-290 | with the corrected text, the two order errors carry different messages |
| Cells.SerializeKinds | src/main/java/gov/cdc/foundation/controller/XLSXController.java:374-406 | a missing cell or an unhandled kind gives "". Text is kept as is, and a boolean becomes "true"/"false". A number goes through the date formatter when its format is a date format, and through `Double.toString` otherwise |
| Cells.FormulaAsCached | src/main/java/gov/cdc/foundation/controller/XLSXController.java:388-401 | a formula cell serializes exactly like a plain cell holding its cached result |
| Cells.BlankCells | src/main/java/gov/cdc/foundation/controller/XLSXController.java:374-406 | a cell serializes to "" exactly when it is missing, of an unhandled kind, empty text, or a number its formatter writes as "" |
| Extraction.Portrait | src/main/java/gov/cdc/foundation/controller/XLSXController.java:298-319 | every emitted row is present and not blank over the band, the k-th result row is sheet row startRow+k, and the row just after the last emitted one is missing or blank |
| Extraction.PortraitRows | src/main/java/gov/cdc/foundation/controller/XLSXController.java:304-315 | every portrait row has the band's width and is not blank |
| Extraction.PortraitUnique | src/main/java/gov/cdc/foundation/controller/XLSXController.java:298-319 | the portrait result is the only table meeting those stop conditions |
| Extraction.NonBlankIsOccupied | src/main/java/gov/cdc/foundation/controller/XLSXController.java:323-340 | a column with a value somewhere in the band holds a cell, so the search for a blank column ends |
| Extraction.FirstBlankColumn | src/main/java/gov/cdc/foundation/controller/XLSXController.java:323-340 | the search returns a column at or right of the seed that is blank in every row of the band, and every column before it has a value |
| Extraction.Landscape | src/main/java/gov/cdc/foundation/controller/XLSXController.java:320-354 | the result has one row per row of the band and all rows have the same width. Each entry is the serialized cell, and a missing row gives "". The column after the last is blank across the band and every kept column has a value. A blank seed column gives empty rows |
| Extraction.LandscapeWidthUnique | src/main/java/gov/cdc/foundation/controller/XLSXController.java:323-341 | the landscape width is the only one whose next column is blank while every earlier column is not |
| Extraction.Scan | src/main/java/gov/cdc/foundation/controller/XLSXController.java:296-356 | the result is rectangular. A portrait orientation gives the portrait stop conditions, and every other orientation string gives the landscape facts |
| Extraction.ExtractData | src/main/java/gov/cdc/foundation/controller/XLSXController.java:275-357 | `extractData` fails exactly when the request checks fail, with the same error, and otherwise returns a rectangular table; what the table holds is stated in `ExtractPortrait` and `ExtractLandscape` |
| Extraction.OrientationClassDecides | src/main/java/gov/cdc/foundation/controller/XLSXController.java:291-298 | only whether the orientation reads as portrait or landscape affects the result |
| Extraction.ExtractPortrait | src/main/java/gov/cdc/foundation/controller/XLSXController.java:275-319 | for an accepted portrait request, row k of the result is the slice over the range's columns of sheet row startRow+k, every such row is present and not blank, and the row after the last one is missing or blank |
| Extraction.ExtractLandscape | src/main/java/gov/cdc/foundation/controller/XLSXController.java:275-354 | for an accepted request of any other orientation, the result has one row per row of the range, each entry is the serialized cell at that row and column, and the width ends just before the first column at or right of the seed that is blank across the band |
| Output.CsvLineAppend | src/main/java/gov/cdc/foundation/controller/XLSXController.java:191-195 | appending a cell to a non-empty row adds a comma and the quoted cell to its line |
| Output.CsvAppend | src/main/java/gov/cdc/foundation/controller/XLSXController.java:187-197 | appending a row adds its line and one line feed to the text |
| Output.AppendRow | src/main/java/gov/cdc/foundation/controller/XLSXController.java:189-196 | the inner loop appends the row's quoted cells joined by commas, then a line feed |
| Output.BuildCsv | src/main/java/gov/cdc/foundation/controller/XLSXController.java:187-197 | the `StringBuilder` loop produces the CSV text of the table |
| Output.LineFeedPerRow | src/main/java/gov/cdc/foundation/controller/XLSXController.java:187-197 | with cells free of line feeds, the text has exactly one line feed per row, the last row included |
| Output.CsvRoundTrip | src/main/java/gov/cdc/foundation/controller/XLSXController.java:187-197 | when no cell holds a double quote, reading the text back as lines of quoted fields returns the table |
| Output.UnescapedQuoteSplitsCell | src/main/java/gov/cdc/foundation/controller/XLSXController.java:192-194 | quotes are not escaped: a one-cell row holding `a","b` is written like the two-cell row `a`, `b` and reads back as the two cells |
| Output.JsonEnvelope | src/main/java/gov/cdc/foundation/controller/XLSXController.java:136-139 | `rows` counts the rows, `cols` is 0 without rows, and for a rectangular table every row has `cols` entries |
| Output.EnvelopeCountsCells | src/main/java/gov/cdc/foundation/controller/XLSXController.java:136-139 | for a rectangular table, `rows` times `cols` is the number of cells |
| Output.ExtractToJson | src/main/java/gov/cdc/foundation/controller/XLSXController.java:128-139 | the JSON endpoint fails exactly when the request checks fail, with the same error; on success `items` is exactly the table `extractData` returns for the defaulted range and orientation, and `rows` and `cols` describe it |
| Output.ExtractToCsv | src/main/java/gov/cdc/foundation/controller/XLSXController.java:183-197 | the CSV endpoint fails exactly when the request checks fail, with the same error; on success its body is the CSV text of the table `extractData` returns for the defaulted range and orientation |
| Output.EndpointsAgree | src/main/java/gov/cdc/foundation/controller/XLSXController.java:129-197 | the CSV endpoint succeeds exactly when the JSON endpoint does, and its body is the JSON items written as CSV, with one line feed per JSON row |
| Output.EnvelopeShape | src/main/java/gov/cdc/foundation/controller/XLSXController.java:136-139 | a non-empty portrait result reports as many columns as the range spans, and a landscape result reports one row per row of the range |
| Output.MissingRangeIsRefused | src/main/java/gov/cdc/foundation/controller/XLSXController.java:129 | without a range both endpoints refuse the request as malformed |
| Output.MissingOrientationIsPortrait | src/main/java/gov/cdc/foundation/controller/XLSXController.java:129 | without an orientation, or with an empty one, the request is served as portrait |
| SampleSheet.SamplePortrait | src/test/java/gov/cdc/foundation/MicrosoftApplicationTests.java:85-91 | on the assumed sample, the portrait scan over columns A..C from row 1 returns both rows and stops at the missing third |
| SampleSheet.SampleJson | src/test/java/gov/cdc/foundation/MicrosoftApplicationTests.java:85-91 | range `A1:C1` with the default orientation gives `rows` 2 and `cols` 3 |
| SampleSheet.SampleCsv | src/test/java/gov/cdc/foundation/MicrosoftApplicationTests.java:75-81 | the same request writes the lines `"A1","B1","C1"` and `"A2","B2","C2"`, each ending in a line feed |
| SampleSheet.EmptySheetJson | src/main/java/gov/cdc/foundation/controller/XLSXController.java:136-139 | a sheet without rows gives `rows` 0 and `cols` 0 |
| SampleSheet.RowZeroFindsNothing | src/main/java/gov/cdc/foundation/controller/XLSXController.java:284-319 | `A0:C0` is accepted as row index -1, and on a sheet with no negative indices the portrait scan returns no rows |
| SampleSheet.SampleLandscape | src/main/java/gov/cdc/foundation/controller/XLSXController.java:320-354 | on the assumed sample, with nothing right of column C, landscape over `A1:A2` reads three columns and gives the same table as the portrait request |

## Left out

- HTTP plumbing is not modelled: multipart upload, the `.xlsx` file-name check, the `Content-Disposition` header and random file names, the error handler and logging.
- Workbook parsing and sheet selection by name or index (`WorkbookFactory`, `getSheet`) are not modelled. The model starts from a sheet already in hand.
- The `sheets` listing, CSV-to-XLSX conversion (`convertCSVToXLSX`) and the DOCX controller are outside the extraction core.
- `Double.toString` and the date formatting of `dateCellToStr` are parameters (`Renderer`), not modelled. They are floating-point and formatter logic from the Java and POI libraries.
- Cells.Serialize: its contract is stated in `Cells.SerializeKinds`, `Cells.FormulaAsCached` and `Cells.BlankCells`, not on the function itself.
- RangeParser.Lower: folds ASCII letters only. Locale-sensitive and non-ASCII case mappings of `toLowerCase` are not modelled.
- Extraction.Portrait: row and column indices are unbounded integers. The Java `rowIdx++` and `colIdxMax++` would wrap at the `int` maximum, which needs a sheet reaching row or column 2^31 and is not reachable in a real workbook.
- Extraction.Landscape: `colIdxMax` is computed from a `HashSet` of the band's values. The model uses the equivalent "every value is empty" test, and the order of iteration does not matter.
- A sheet is any finite map, so negative row and column keys are allowed although the workbook reader never builds them. Results that depend on that, such as `SampleSheet.RowZeroFindsNothing`, assume `Extraction.WellFormedSheet`.
- Cells.Content: a number is an exact `real`, so `-0.0` and `0.0` are the same value, although `Double.toString` writes them differently. NaN and the infinities are not represented.
- The sample workbook's contents are not visible as text. `SampleSheet.Sample` is one workbook consistent with the endpoint tests: text cells A1..C2 and no third row. The tests read only columns A..C in portrait, so they cannot tell a missing third row from a blank one, or text cells from formulas with cached text. That nothing lies right of column C is an assumption, and `SampleSheet.SampleLandscape` depends on it.
- Output.MissingRangeIsRefused: models the method body as written. `sheetRange` is a required request parameter, so over HTTP a request without it is refused by the web framework's missing-parameter error before the null guard runs, not with `InvalidRangeSyntax`.

## Findings

| source | as written | input that shows it | evidently intended | confidence | as-written member | corrected member |
|---|---|---|---|---|---|---|
| src/main/java/gov/cdc/foundation/controller/XLSXController.java:289-290 | a reversed row range raises "The end column needs to be after the start column." | `A2:A1` | a message naming rows, such as "The end row needs to be after the start row." | high (not executed) | RangeParser.RowOrderMessageNamesColumns | RangeParser.IntendedMessagesDiffer |

=== FILE: cells.dfy ===
/**
  The cell serializer (`cellToStr`): every cell kind the workbook library
  reports is turned into a string, and kinds it does not handle become the
  empty string instead of failing.
*/
module Cells {
  import opened Results

  /**
    What a cell holds. A number keeps the cell's "is date formatted" verdict
    and its style's format string, which are both properties of the cell.
    `NoValue` stands for the blank kind and for a missing type.
  */
  datatype Content =
    | Number(value: real, dateFormatted: bool, format: string)
    | Boolean(b: bool)
    | Text(s: string)
    | NoValue
    | ErrorCode(code: int)

  /** A cell as declared: a plain value, or a formula with the result cached when the file was saved. */
  datatype Cell = Plain(content: Content) | Formula(cached: Content)

  /**
    The two library formatters, which this model does not interpret:
    `decimal` is `Double.toString` and `date` renders a spreadsheet serial
    date with a format pattern.
  */
  datatype Renderer = Renderer(decimal: real -> string, date: (real, string) -> string)

  /** How a number is written: as a date through its own format pattern, or as a decimal. */
  function NumberText(value: real, dateFormatted: bool, format: string, r: Renderer): string {
    if dateFormatted then r.date(value, format) else r.decimal(value)
  }

  function BooleanText(b: bool): (s: string)
    ensures s == "true" || s == "false"
    ensures s == "true" <==> b
  {
    if b then "true" else "false"
  }

  /**
    `cellToStr`. An absent cell and the unsupported kinds give ""; a formula
    is dispatched on the kind of its cached result, with the same three
    renderings as a plain cell. Its contract is stated by `SerializeKinds`,
    `FormulaAsCached` and `BlankCells`.
  */
  function Serialize(cell: Option<Cell>, r: Renderer): string
  {
    match cell
    case None => ""
    case Some(Plain(content)) =>
      (match content
       case Number(v, isDate, format) => NumberText(v, isDate, format, r)
       case Boolean(b) => BooleanText(b)
       case Text(t) => t
       case _ => "")
    case Some(Formula(cached)) =>
      (match cached
       case Number(v, isDate, format) => NumberText(v, isDate, format, r)
       case Boolean(b) => BooleanText(b)
       case Text(t) => t
       case _ => "")
  }

  /** The value a cell shows: its own content, or a formula's cached result. */
  function Payload(cell: Cell): Content {
    match cell
    case Plain(content) => content
    case Formula(cached) => cached
  }

  /** Kinds the serializer does not render. */
  predicate Inert(c: Content) {
    c.NoValue? || c.ErrorCode?
  }

  /**
    What each kind of cell becomes: nothing for an absent cell or an
    unrendered kind, the literal text unchanged, "true" or "false", and a
    number through the formatter its date flag selects.
  */
  lemma SerializeKinds(cell: Option<Cell>, r: Renderer)
    ensures cell.None? ==> Serialize(cell, r) == ""
    ensures cell.Some? && Inert(Payload(cell.value)) ==> Serialize(cell, r) == ""
    ensures cell.Some? && Payload(cell.value).Text? ==> Serialize(cell, r) == Payload(cell.value).s
    ensures cell.Some? && Payload(cell.value).Boolean? ==> Serialize(cell, r) == BooleanText(Payload(cell.value).b)
    ensures cell.Some? && Payload(cell.value).Number? && Payload(cell.value).dateFormatted ==>
              Serialize(cell, r) == r.date(Payload(cell.value).value, Payload(cell.value).format)
    ensures cell.Some? && Payload(cell.value).Number? && !Payload(cell.value).dateFormatted ==>
              Serialize(cell, r) == r.decimal(Payload(cell.value).value)
  {
  }

  /** A formula cell serializes exactly as a plain cell holding its cached result. */
  lemma FormulaAsCached(c: Content, r: Renderer)
    ensures Serialize(Some(Formula(c)), r) == Serialize(Some(Plain(c)), r)
  {
  }

  /**
    When a cell counts as blank for the region scans: it is absent, of an
    unrendered kind, empty text, or a number its formatter writes as "".
    A boolean is never blank.
  */
  lemma BlankCells(cell: Option<Cell>, r: Renderer)
    ensures Serialize(cell, r) == "" <==>
              || cell.None?
              || Inert(Payload(cell.value))
              || Payload(cell.value) == Text("")
              || (Payload(cell.value).Number? &&
                  NumberText(Payload(cell.value).value, Payload(cell.value).dateFormatted, Payload(cell.value).format, r) == "")
  {
  }
}

=== FILE: column_letters.dfy ===
/**
  The column-letter codec of the sheet-range extractor: a run of upper-case
  letters names a column in bijective base 26 (A = 1, ..., Z = 26, AA = 27).
  `ColumnNumber` is the exact value, `Index` is what the Java `index` method
  returns once the saturating narrowing of its `double` sum to `int` is
  taken into account, and `Letters` is
  the inverse used to state the codec's round trips.
*/
module ColumnLetters {

  /** Largest value of a Java `int`. */
  const IntMax: int := 0x7fff_ffff

  predicate IsUpper(c: char) {
    'A' <= c <= 'Z'
  }

  predicate IsLetterRun(s: string) {
    forall i :: 0 <= i < |s| ==> IsUpper(s[i])
  }

  /** The digit a letter stands for: A = 1, ..., Z = 26. */
  function LetterValue(c: char): (d: nat)
    requires IsUpper(c)
    ensures 1 <= d <= 26
  {
    (c as int) - ('A' as int) + 1
  }

  function Pow26(k: nat): (p: nat)
    ensures p >= 1
  {
    if k == 0 then 1 else 26 * Pow26(k - 1)
  }

  /** The exact column number of a letter run; the last letter is the least significant digit. */
  function ColumnNumber(s: string): (n: nat)
    requires IsLetterRun(s)
    ensures n == 0 <==> |s| == 0
  {
    if |s| == 0 then 0
    else 26 * ColumnNumber(s[..|s| - 1]) + LetterValue(s[|s| - 1])
  }

  /** Java's narrowing of a non-negative `double` to `int`, which clamps at `IntMax`. */
  function Narrow(x: nat): (n: nat)
    ensures n <= IntMax
    ensures n == x <==> x <= IntMax
    ensures n == IntMax <==> x >= IntMax
  {
    if x > IntMax then IntMax else x
  }

  /**
    The value of the Java `index` method on a letter run. The accumulation
    `index += digit * Math.pow(26, ...)` is a compound assignment, so every
    partial sum is narrowed back to `int`; since every term is positive, the
    result is the exact column number clamped at `IntMax`.
  */
  function Index(s: string): (n: nat)
    requires IsLetterRun(s)
    ensures n == 0 <==> |s| == 0
    ensures n <= IntMax
    ensures n == ColumnNumber(s) <==> ColumnNumber(s) <= IntMax
    ensures ColumnNumber(s) > IntMax ==> n == IntMax
  {
    Narrow(ColumnNumber(s))
  }

  /** The Java `index` loop: letter i contributes its digit times 26 to the power of the letters after it. */
  method IndexLoop(letters: string) returns (index: nat)
    requires IsLetterRun(letters)
    ensures index == Index(letters)
  {
    if |letters| == 0 {
      return 0;
    }
    index := 0;
    var position := 1;
    for i := 0 to |letters|
      invariant position == i + 1
      invariant index == Narrow(ColumnNumber(letters[..i]) * Pow26(|letters| - i))
    {
      var term := LetterValue(letters[i]) * Pow26(|letters| - position);
      PositionStep(letters, i);
      NarrowAdd(ColumnNumber(letters[..i]) * Pow26(|letters| - i), term);
      index := Narrow(index + term);
      position := position + 1;
    }
    assert letters[..|letters|] == letters;
    assert Pow26(0) == 1;
  }

  /** Narrowing a partial sum before adding a non-negative term changes nothing once the total is narrowed. */
  lemma NarrowAdd(a: nat, b: nat)
    ensures Narrow(Narrow(a) + b) == Narrow(a + b)
  {
  }

  /** One iteration of the `index` loop adds the next letter's weighted digit to the scaled prefix value. */
  lemma PositionStep(s: string, i: nat)
    requires IsLetterRun(s) && i < |s|
    ensures ColumnNumber(s[..i + 1]) * Pow26(|s| - i - 1)
         == ColumnNumber(s[..i]) * Pow26(|s| - i) + LetterValue(s[i]) * Pow26(|s| - i - 1)
  {
    var p := Pow26(|s| - i - 1);
    assert s[..i + 1][..i] == s[..i];
    assert ColumnNumber(s[..i + 1]) == 26 * ColumnNumber(s[..i]) + LetterValue(s[i]);
    assert Pow26(|s| - i) == 26 * p;
    calc {
      ColumnNumber(s[..i + 1]) * p;
      (26 * ColumnNumber(s[..i]) + LetterValue(s[i])) * p;
      { assert (26 * ColumnNumber(s[..i]) + LetterValue(s[i])) * p
            == ColumnNumber(s[..i]) * (26 * p) + LetterValue(s[i]) * p; }
      ColumnNumber(s[..i]) * (26 * p) + LetterValue(s[i]) * p;
    }
  }

  /** Appending a letter shifts the run one base-26 place and adds the letter's digit. */
  lemma ColumnNumberAppend(s: string, c: char)
    requires IsLetterRun(s) && IsUpper(c)
    ensures IsLetterRun(s + [c])
    ensures ColumnNumber(s + [c]) == 26 * ColumnNumber(s) + LetterValue(c)
  {
    assert (s + [c])[..|s|] == s;
  }

  /** The inverse of `ColumnNumber`: the letter run naming the n-th column (the empty run for 0). */
  function Letters(n: nat): (s: string)
    ensures IsLetterRun(s)
    ensures |s| == 0 <==> n == 0
  {
    if n == 0 then []
    else Letters((n - 1) / 26) + [((n - 1) % 26 + 'A' as int) as char]
  }

  /** Every column number is named by exactly the run `Letters` produces. */
  lemma {:induction false} LettersRoundTrip(n: nat)
    ensures ColumnNumber(Letters(n)) == n
  {
    if n > 0 {
      var q := (n - 1) / 26;
      var c := ((n - 1) % 26 + 'A' as int) as char;
      LettersRoundTrip(q);
      ColumnNumberAppend(Letters(q), c);
      assert Letters(n) == Letters(q) + [c];
    }
  }

  /** Decoding a letter run and encoding the number again gives the same run back. */
  lemma {:induction false} ColumnNumberRoundTrip(s: string)
    requires IsLetterRun(s)
    ensures Letters(ColumnNumber(s)) == s
  {
    if |s| > 0 {
      var prefix := s[..|s| - 1];
      var m := ColumnNumber(prefix);
      var d := LetterValue(s[|s| - 1]);
      var n := ColumnNumber(s);
      assert n == 26 * m + d;
      assert (n - 1) / 26 == m && (n - 1) % 26 == d - 1;
      ColumnNumberRoundTrip(prefix);
      assert s == prefix + [s[|s| - 1]];
    }
  }

  /** Distinct letter runs name distinct columns. */
  lemma ColumnNumberInjective(a: string, b: string)
    requires IsLetterRun(a) && IsLetterRun(b)
    ensures ColumnNumber(a) == ColumnNumber(b) <==> a == b
  {
    if ColumnNumber(a) == ColumnNumber(b) {
      ColumnNumberRoundTrip(a);
      ColumnNumberRoundTrip(b);
    }
  }

  /** The number of the first column whose name has m letters ("A", "AA", "AAA", ...). */
  function FirstOfLength(m: nat): nat {
    if m == 0 then 0 else 26 * FirstOfLength(m - 1) + 1
  }

  lemma {:induction false} FirstOfLengthStep(m: nat)
    ensures FirstOfLength(m + 1) == FirstOfLength(m) + Pow26(m)
  {
    if m > 0 {
      FirstOfLengthStep(m - 1);
    }
  }

  /** The m-letter runs occupy exactly the column numbers from FirstOfLength(m) up to FirstOfLength(m + 1) - 1. */
  lemma {:induction false} LengthBounds(s: string)
    requires IsLetterRun(s)
    ensures FirstOfLength(|s|) <= ColumnNumber(s) < FirstOfLength(|s| + 1)
  {
    if |s| > 0 {
      LengthBounds(s[..|s| - 1]);
    }
  }

  lemma {:induction false} FirstOfLengthMonotone(m: nat, k: nat)
    requires m <= k
    ensures FirstOfLength(m) <= FirstOfLength(k)
  {
    if m < k {
      FirstOfLengthMonotone(m, k - 1);
    }
  }

  /** A run of at most six letters never reaches the `int` clamp, so `Index` is exact on it. */
  lemma ShortRunsAreExact(s: string)
    requires IsLetterRun(s) && |s| <= 6
    ensures Index(s) == ColumnNumber(s)
  {
    LengthBounds(s);
    FirstOfLengthMonotone(|s| + 1, 7);
    assert FirstOfLength(7) == 321272407;
  }

  /** The leading letter carries weight 26^(length - 1): the positional reading of the Java loop. */
  lemma {:induction false} LeadingLetter(s: string)
    requires IsLetterRun(s) && |s| > 0
    ensures ColumnNumber(s) == LetterValue(s[0]) * Pow26(|s| - 1) + ColumnNumber(s[1..])
  {
    if |s| == 1 {
      assert s[1..] == [];
    } else {
      var prefix := s[..|s| - 1];
      var rest := s[1..];
      var d0, dn := LetterValue(s[0]), LetterValue(s[|s| - 1]);
      var p := Pow26(|s| - 2);
      LeadingLetter(prefix);
      assert prefix[0] == s[0];
      assert prefix[1..] == rest[..|rest| - 1];
      assert ColumnNumber(prefix) == d0 * p + ColumnNumber(prefix[1..]);
      assert ColumnNumber(rest) == 26 * ColumnNumber(prefix[1..]) + dn;
      assert ColumnNumber(s) == 26 * ColumnNumber(prefix) + dn;
      assert 26 * (d0 * p) == d0 * (26 * p);
      assert Pow26(|s| - 1) == 26 * p;
    }
  }

  /** Lexicographic order on two letter runs of equal length. */
  predicate LexBefore(a: string, b: string)
    requires |a| == |b|
  {
    |a| > 0 && (a[0] < b[0] || (a[0] == b[0] && LexBefore(a[1..], b[1..])))
  }

  /** Spreadsheet column order: shorter names first, names of equal length alphabetically. */
  predicate ColumnBefore(a: string, b: string) {
    |a| < |b| || (|a| == |b| && LexBefore(a, b))
  }

  lemma {:induction false} LexTrichotomy(a: string, b: string)
    requires |a| == |b| && a != b
    ensures LexBefore(a, b) || LexBefore(b, a)
  {
    if a[0] == b[0] {
      assert a == [a[0]] + a[1..] && b == [b[0]] + b[1..];
      LexTrichotomy(a[1..], b[1..]);
    }
  }

  /** A larger leading digit outweighs any difference in the remaining digits. */
  lemma LeadingDigitDominates(va: nat, vb: nat, p: nat, ra: nat, rb: nat, lo: nat)
    requires va < vb && p >= 1
    requires lo <= rb && ra < lo + p
    ensures va * p + ra < vb * p + rb
  {
    var k := vb - va - 1;
    assert vb == va + 1 + k;
    assert vb * p == va * p + p + k * p by {
      assert (va + 1 + k) * p == va * p + 1 * p + k * p;
    }
    assert k * p >= 0;
  }

  lemma {:induction false} LexBeforeNumber(a: string, b: string)
    requires IsLetterRun(a) && IsLetterRun(b) && |a| == |b|
    requires LexBefore(a, b)
    ensures ColumnNumber(a) < ColumnNumber(b)
  {
    var p := Pow26(|a| - 1);
    LeadingLetter(a);
    LeadingLetter(b);
    if a[0] < b[0] {
      LengthBounds(a[1..]);
      LengthBounds(b[1..]);
      FirstOfLengthStep(|a| - 1);
      LeadingDigitDominates(LetterValue(a[0]), LetterValue(b[0]), p,
                            ColumnNumber(a[1..]), ColumnNumber(b[1..]), FirstOfLength(|a| - 1));
    } else {
      LexBeforeNumber(a[1..], b[1..]);
    }
  }

  /** The codec is strictly increasing in spreadsheet column order, in both directions. */
  lemma ColumnOrder(a: string, b: string)
    requires IsLetterRun(a) && IsLetterRun(b)
    ensures ColumnBefore(a, b) <==> ColumnNumber(a) < ColumnNumber(b)
  {
    if |a| < |b| {
      LengthBounds(a);
      LengthBounds(b);
      FirstOfLengthMonotone(|a| + 1, |b|);
    } else if |b| < |a| {
      LengthBounds(a);
      LengthBounds(b);
      FirstOfLengthMonotone(|b| + 1, |a|);
    } else if LexBefore(a, b) {
      LexBeforeNumber(a, b);
    } else if a != b {
      LexTrichotomy(a, b);
      LexBeforeNumber(b, a);
    }
  }

  /**
    The order check on clamped indices agrees with spreadsheet column order
    as long as both columns fit in an `int`, that is up to FXSHRXW.
  */
  lemma IndexOrder(a: string, b: string)
    requires IsLetterRun(a) && IsLetterRun(b)
    requires ColumnNumber(a) <= IntMax && ColumnNumber(b) <= IntMax
    ensures ColumnBefore(a, b) <==> Index(a) < Index(b)
  {
    ColumnOrder(a, b);
  }

  lemma FxshValue()
    ensures ColumnNumber("FXSH") == 122182
  {
    assert "FXSH"[..3] == "FXS" && "FXS"[..2] == "FX" && "FX"[..1] == "F";
  }

  lemma FxshrxValue()
    ensures ColumnNumber("FXSHRX") == 82595524
  {
    FxshValue();
    assert "FXSHRX"[..5] == "FXSHR" && "FXSHR"[..4] == "FXSH";
  }

  /** FXSHRXW is the last column whose number fits in an `int`; from FXSHRXX on `index` clamps. */
  lemma LastExactColumn()
    ensures ColumnNumber("FXSHRXW") == IntMax && Index("FXSHRXW") == IntMax
    ensures ColumnNumber("FXSHRXX") == IntMax + 1 && Index("FXSHRXX") == IntMax
  {
    FxshrxValue();
    assert "FXSHRXW"[..6] == "FXSHRX" && "FXSHRXX"[..6] == "FXSHRX";
  }

  /** Every run of eight or more letters is past column IntMax. */
  lemma LongRunsClamp(s: string)
    requires IsLetterRun(s) && |s| >= 8
    ensures Index(s) == IntMax
  {
    LengthBounds(s);
    FirstOfLengthMonotone(8, |s|);
    assert FirstOfLength(8) == 8353082583;
  }

  /** The reference values spreadsheets use, including XFD, the last column of a worksheet. */
  lemma KnownColumns()
    ensures Index("") == 0
    ensures Index("A") == 1 && Index("Z") == 26
    ensures Index("AA") == 27 && Index("AZ") == 52 && Index("BA") == 53
    ensures Index("XFD") == 16384
  {
    assert "AA"[..1] == "A" && "AZ"[..1] == "A" && "BA"[..1] == "B";
    assert "XFD"[..2] == "XF" && "XF"[..1] == "X";
  }
}

=== FILE: extraction.dfy ===
/**
  The region extractor (`extractData`): after the request checks, a
  portrait request walks down from its seed row over a fixed column band,
  and any other request scans right from its seed column over a fixed row
  band. The sheet is a finite sparse map from row index to the row's cells.
*/
module Extraction {
  import opened Results
  import opened Cells
  import opened RangeParser

  /** A sheet row: column index to cell; a missing entry is a missing cell. */
  type Row = map<int, Cell>

  /** A sheet: row index to row; a missing entry is a missing row. */
  type Sheet = map<int, Row>

  /** Sheets as the workbook reader builds them: row and column indices are never negative. */
  predicate WellFormedSheet(sheet: Sheet) {
    forall row :: row in sheet ==> row >= 0 && forall col :: col in sheet[row] ==> col >= 0
  }

  /** The extracted data: rows of serialized cells. */
  type Table = seq<seq<string>>

  function CellAt(row: Row, col: int): Option<Cell> {
    if col in row then Some(row[col]) else None
  }

  /** `count` serialized cells of a row, starting at column `from`. */
  function Slice(row: Row, r: Renderer, from: int, count: nat): (line: seq<string>)
    ensures |line| == count
    ensures forall j :: 0 <= j < count ==> line[j] == Serialize(CellAt(row, from + j), r)
  {
    seq(count, j requires 0 <= j < count => Serialize(CellAt(row, from + j), r))
  }

  predicate IsBlank(line: seq<string>) {
    forall j :: 0 <= j < |line| ==> line[j] == ""
  }

  predicate Rectangular(t: Table) {
    forall k :: 0 <= k < |t| ==> |t[k]| == |t[0]|
  }

  /** The rows of the sheet at or below `rowIdx`: what is left for a downward scan. */
  function RowsFrom(sheet: Sheet, rowIdx: int): set<int> {
    set k | k in sheet && k >= rowIdx
  }

  /** Sheet row `row` is present and not blank over the column band: the portrait scan goes on past it. */
  predicate Continues(sheet: Sheet, r: Renderer, row: int, startCol: int, width: nat) {
    row in sheet && !IsBlank(Slice(sheet[row], r, startCol, width))
  }

  /** `line` is the band slice of sheet row `row`, which is present. */
  predicate Emits(sheet: Sheet, r: Renderer, row: int, startCol: int, width: nat, line: seq<string>) {
    row in sheet && line == Slice(sheet[row], r, startCol, width)
  }

  /**
    The portrait scan from `rowIdx` over `width` columns starting at
    `startCol`: each present row with a non-blank slice is emitted, and the
    scan stops at the first missing row or the first blank slice. The
    contract fixes the result completely (see `PortraitUnique`).
  */
  function Portrait(sheet: Sheet, r: Renderer, rowIdx: int, startCol: int, width: nat): (t: Table)
    ensures forall row :: rowIdx <= row < rowIdx + |t| ==> Continues(sheet, r, row, startCol, width)
    ensures forall k :: 0 <= k < |t| ==> Emits(sheet, r, rowIdx + k, startCol, width, t[k])
    ensures !Continues(sheet, r, rowIdx + |t|, startCol, width)
    decreases RowsFrom(sheet, rowIdx)
  {
    if rowIdx !in sheet then []
    else
      var line := Slice(sheet[rowIdx], r, startCol, width);
      if IsBlank(line) then []
      else
        assert RowsFrom(sheet, rowIdx + 1) < RowsFrom(sheet, rowIdx) by {
          assert rowIdx in RowsFrom(sheet, rowIdx);
        }
        var rest := Portrait(sheet, r, rowIdx + 1, startCol, width);
        var t := [line] + rest;
        assert forall k :: 0 <= k < |t| ==> Emits(sheet, r, rowIdx + k, startCol, width, t[k]) by {
          forall k | 0 <= k < |t|
            ensures Emits(sheet, r, rowIdx + k, startCol, width, t[k])
          {
            if k > 0 {
              assert t[k] == rest[k - 1];
              assert Emits(sheet, r, rowIdx + 1 + (k - 1), startCol, width, rest[k - 1]);
            }
          }
        }
        t
  }

  /** Every row of a portrait scan spans the band and none is blank. */
  lemma PortraitRows(sheet: Sheet, r: Renderer, rowIdx: int, startCol: int, width: nat)
    ensures var t := Portrait(sheet, r, rowIdx, startCol, width);
            forall k :: 0 <= k < |t| ==> |t[k]| == width && !IsBlank(t[k])
  {
    var t := Portrait(sheet, r, rowIdx, startCol, width);
    forall k | 0 <= k < |t|
      ensures |t[k]| == width && !IsBlank(t[k])
    {
      assert Continues(sheet, r, rowIdx + k, startCol, width);
    }
  }

  /** Any table meeting the portrait stop conditions is the one the scan returns. */
  lemma PortraitUnique(sheet: Sheet, r: Renderer, rowIdx: int, startCol: int, width: nat, t: Table)
    requires forall row :: rowIdx <= row < rowIdx + |t| ==> Continues(sheet, r, row, startCol, width)
    requires forall k :: 0 <= k < |t| ==> Emits(sheet, r, rowIdx + k, startCol, width, t[k])
    requires !Continues(sheet, r, rowIdx + |t|, startCol, width)
    ensures t == Portrait(sheet, r, rowIdx, startCol, width)
  {
  }

  /** The serialized cell at (row, col), where a missing row reads as "". */
  function CellText(sheet: Sheet, r: Renderer, row: int, col: int): (s: string)
    ensures row !in sheet ==> s == ""
  {
    if row in sheet then Serialize(CellAt(sheet[row], col), r) else ""
  }

  /** Column `col` is blank in every row of the band. */
  predicate ColumnBlank(sheet: Sheet, r: Renderer, startRow: int, endRow: int, col: int) {
    forall row :: startRow <= row <= endRow ==> CellText(sheet, r, row, col) == ""
  }

  /** Every column index that holds a cell in some row. */
  function OccupiedColumns(sheet: Sheet): set<int> {
    set row, col | row in sheet && col in sheet[row] :: col
  }

  /** A column with a non-empty value holds a cell somewhere. */
  lemma NonBlankIsOccupied(sheet: Sheet, r: Renderer, startRow: int, endRow: int, col: int)
    requires !ColumnBlank(sheet, r, startRow, endRow, col)
    ensures col in OccupiedColumns(sheet)
  {
    var row :| startRow <= row <= endRow && CellText(sheet, r, row, col) != "";
    assert row in sheet && col in sheet[row];
  }

  /** The occupied columns at or right of `col`: what is left for a rightward scan. */
  function ColumnsFrom(sheet: Sheet, col: int): set<int> {
    set c | c in OccupiedColumns(sheet) && c >= col
  }

  /**
    The first landscape phase: the first column at or right of `col` that is
    blank across the whole row band. The Java loop has no bound of its own;
    it ends because only finitely many columns hold cells.
  */
  function FirstBlankColumn(sheet: Sheet, r: Renderer, startRow: int, endRow: int, col: int): (c: int)
    ensures col <= c
    ensures ColumnBlank(sheet, r, startRow, endRow, c)
    ensures forall k :: col <= k < c ==> !ColumnBlank(sheet, r, startRow, endRow, k)
    decreases ColumnsFrom(sheet, col)
  {
    if ColumnBlank(sheet, r, startRow, endRow, col) then col
    else
      NonBlankIsOccupied(sheet, r, startRow, endRow, col);
      assert col !in ColumnsFrom(sheet, col + 1);
      FirstBlankColumn(sheet, r, startRow, endRow, col + 1)
  }

  /** Column j of a table holds a non-empty value in some row. */
  predicate ColumnHasValue(t: Table, j: int) {
    exists k :: 0 <= k < |t| && 0 <= j < |t[k]| && t[k][j] != ""
  }

  /**
    The landscape scan: the row band is kept as declared, and the width runs
    from the seed column up to `colIdxMax`, the column before the first one
    blank across the band. A missing row contributes "" in every column.
  */
  function Landscape(sheet: Sheet, r: Renderer, startRow: int, endRow: int, startCol: int): (t: Table)
    requires startRow <= endRow
    ensures |t| == endRow - startRow + 1
    ensures Rectangular(t)
    ensures forall k, j :: 0 <= k < |t| && 0 <= j < |t[k]| ==> t[k][j] == CellText(sheet, r, startRow + k, startCol + j)
    ensures forall k :: 0 <= k < |t| && startRow + k !in sheet ==> IsBlank(t[k])
    ensures ColumnBlank(sheet, r, startRow, endRow, startCol + |t[0]|)
    ensures forall c :: startCol <= c < startCol + |t[0]| ==> !ColumnBlank(sheet, r, startRow, endRow, c)
    ensures forall j :: 0 <= j < |t[0]| ==> ColumnHasValue(t, j)
    ensures ColumnBlank(sheet, r, startRow, endRow, startCol) ==> forall k :: 0 <= k < |t| ==> t[k] == []
  {
    var firstBlank := FirstBlankColumn(sheet, r, startRow, endRow, startCol);
    var colIdxMax := firstBlank - 1;
    var width := colIdxMax - startCol + 1;
    var t := seq(endRow - startRow + 1, k requires 0 <= k <= endRow - startRow =>
               seq(width, j requires 0 <= j < width => CellText(sheet, r, startRow + k, startCol + j)));
    assert forall j :: 0 <= j < width ==> ColumnHasValue(t, j) by {
      forall j | 0 <= j < width
        ensures ColumnHasValue(t, j)
      {
        assert !ColumnBlank(sheet, r, startRow, endRow, startCol + j);
        var row :| startRow <= row <= endRow && CellText(sheet, r, row, startCol + j) != "";
        assert t[row - startRow][j] != "";
      }
    }
    t
  }

  /** The landscape width is the only one whose next column is blank while every column before it is not. */
  lemma LandscapeWidthUnique(sheet: Sheet, r: Renderer, startRow: int, endRow: int, startCol: int, w: nat)
    requires startRow <= endRow
    requires ColumnBlank(sheet, r, startRow, endRow, startCol + w)
    requires forall c :: startCol <= c < startCol + w ==> !ColumnBlank(sheet, r, startRow, endRow, c)
    ensures |Landscape(sheet, r, startRow, endRow, startCol)[0]| == w
  {
  }

  /**
    The scan part of `extractData`, for a range that passed the checks: the
    portrait scan when the orientation is "portrait" in any case, and the
    landscape scan for every other orientation string.
  */
  function Scan(sheet: Sheet, r: Renderer, g: Range, orientation: string): (t: Table)
    requires g.startRow <= g.endRow && g.startCol <= g.endCol
    ensures Rectangular(t)
    ensures IsPortrait(orientation) ==>
              var width := g.endCol - g.startCol + 1;
              && (forall row :: g.startRow <= row < g.startRow + |t| ==> Continues(sheet, r, row, g.startCol, width))
              && (forall k :: 0 <= k < |t| ==> Emits(sheet, r, g.startRow + k, g.startCol, width, t[k]))
              && !Continues(sheet, r, g.startRow + |t|, g.startCol, width)
    ensures !IsPortrait(orientation) ==>
              && |t| == g.endRow - g.startRow + 1
              && (forall k, j :: 0 <= k < |t| && 0 <= j < |t[k]| ==> t[k][j] == CellText(sheet, r, g.startRow + k, g.startCol + j))
              && ColumnBlank(sheet, r, g.startRow, g.endRow, g.startCol + |t[0]|)
              && (forall c :: g.startCol <= c < g.startCol + |t[0]| ==> !ColumnBlank(sheet, r, g.startRow, g.endRow, c))
  {
    if IsPortrait(orientation) then
      var width := g.endCol - g.startCol + 1;
      var t := Portrait(sheet, r, g.startRow, g.startCol, width);
      PortraitRows(sheet, r, g.startRow, g.startCol, width);
      t
    else
      Landscape(sheet, r, g.startRow, g.endRow, g.startCol)
  }

  /**
    `extractData`: the request checks, then the scan. A refused request
    yields no data at all.
  */
  function ExtractData(sheet: Sheet, r: Renderer, range: string, orientation: string): (res: Result<Table, Error>)
    ensures res.Err? <==> CheckRequest(range, orientation).Err?
    ensures res.Err? ==> res.error == CheckRequest(range, orientation).error
    ensures res.Ok? ==> Rectangular(res.value)
  {
    match CheckRequest(range, orientation)
    case Err(e) => Err(e)
    case Ok(g) => Ok(Scan(sheet, r, g, orientation))
  }

  /** Only whether the orientation reads as portrait or landscape matters to the extraction. */
  lemma OrientationClassDecides(sheet: Sheet, r: Renderer, range: string, o1: string, o2: string)
    requires IsPortrait(o1) == IsPortrait(o2) && IsLandscape(o1) == IsLandscape(o2)
    ensures ExtractData(sheet, r, range, o1) == ExtractData(sheet, r, range, o2)
  {
    CheckRequestClass(range, o1, o2);
  }

  lemma CheckRequestClass(range: string, o1: string, o2: string)
    requires IsPortrait(o1) == IsPortrait(o2) && IsLandscape(o1) == IsLandscape(o2)
    ensures CheckRequest(range, o1) == CheckRequest(range, o2)
  {
  }

  /** Once the request checks pass with range `g`, the result is the scan of `g`. */
  lemma ExtractAccepted(sheet: Sheet, r: Renderer, range: string, orientation: string, g: Range)
    requires CheckRequest(range, orientation) == Ok(g)
    ensures ExtractData(sheet, r, range, orientation) == Ok(Scan(sheet, r, g, orientation))
  {
  }

  /** A portrait scan is the downward walk over the range's columns. */
  lemma ScanPortrait(sheet: Sheet, r: Renderer, g: Range, orientation: string)
    requires g.startRow <= g.endRow && g.startCol <= g.endCol
    requires IsPortrait(orientation)
    ensures Scan(sheet, r, g, orientation) == Portrait(sheet, r, g.startRow, g.startCol, g.endCol - g.startCol + 1)
  {
  }

  /**
    `t` is what the portrait scan from `rowIdx` over the column band must
    give: row k is the slice of sheet row rowIdx+k, every such row goes on,
    and the row after the last one does not.
  */
  predicate PortraitStops(sheet: Sheet, r: Renderer, rowIdx: int, startCol: int, width: nat, t: Table) {
    && (forall k :: 0 <= k < |t| ==> Emits(sheet, r, rowIdx + k, startCol, width, t[k]))
    && (forall row :: rowIdx <= row < rowIdx + |t| ==> Continues(sheet, r, row, startCol, width))
    && !Continues(sheet, r, rowIdx + |t|, startCol, width)
  }

  /**
    An accepted portrait request returns the sheet rows from the seed row
    down, each sliced over the range's columns, and stops at the first
    missing or blank row. (`ExtractData` is `Ok` exactly when the request
    checks pass.)
  */
  lemma {:induction false} ExtractPortrait(sheet: Sheet, r: Renderer, range: string, orientation: string, g: Range, t: Table)
    requires CheckRequest(range, orientation) == Ok(g)
    requires IsPortrait(orientation)
    requires ExtractData(sheet, r, range, orientation) == Ok(t)
    ensures PortraitStops(sheet, r, g.startRow, g.startCol, g.endCol - g.startCol + 1, t)
  {
    ExtractAccepted(sheet, r, range, orientation, g);
    ScanStops(sheet, r, g, orientation, t);
  }

  /** A portrait scan of an ordered range meets the portrait stop conditions over the range's columns. */
  lemma ScanStops(sheet: Sheet, r: Renderer, g: Range, orientation: string, t: Table)
    requires g.startRow <= g.endRow && g.startCol <= g.endCol
    requires IsPortrait(orientation)
    requires t == Scan(sheet, r, g, orientation)
    ensures PortraitStops(sheet, r, g.startRow, g.startCol, g.endCol - g.startCol + 1, t)
  {
  }

  /**
    `t` is what the landscape scan of the band must give: one row per row
    of the band, each entry the serialized cell, and a width that ends just
    before the first column right of the seed that is blank across the band.
  */
  predicate LandscapeReads(sheet: Sheet, r: Renderer, startRow: int, endRow: int, startCol: int, t: Table) {
    && |t| == endRow - startRow + 1
    && |t| > 0
    && (forall k, j :: 0 <= k < |t| && 0 <= j < |t[k]| ==> t[k][j] == CellText(sheet, r, startRow + k, startCol + j))
    && ColumnBlank(sheet, r, startRow, endRow, startCol + |t[0]|)
    && (forall c :: startCol <= c < startCol + |t[0]| ==> !ColumnBlank(sheet, r, startRow, endRow, c))
  }

  /** An accepted request of any other orientation reads the band of its range rightward. */
  lemma {:induction false} ExtractLandscape(sheet: Sheet, r: Renderer, range: string, orientation: string, g: Range, t: Table)
    requires CheckRequest(range, orientation) == Ok(g)
    requires !IsPortrait(orientation)
    requires ExtractData(sheet, r, range, orientation) == Ok(t)
    ensures LandscapeReads(sheet, r, g.startRow, g.endRow, g.startCol, t)
  {
    ExtractIsLandscape(sheet, r, range, orientation, g, t);
    LandscapeMeetsReads(sheet, r, g.startRow, g.endRow, g.startCol, t);
  }

  /** The landscape scan meets the landscape reading conditions. */
  lemma LandscapeMeetsReads(sheet: Sheet, r: Renderer, startRow: int, endRow: int, startCol: int, t: Table)
    requires startRow <= endRow
    requires t == Landscape(sheet, r, startRow, endRow, startCol)
    ensures LandscapeReads(sheet, r, startRow, endRow, startCol, t)
  {
  }

  /** An accepted request of any other orientation yields the landscape scan of its range. */
  lemma ExtractIsLandscape(sheet: Sheet, r: Renderer, range: string, orientation: string, g: Range, t: Table)
    requires CheckRequest(range, orientation) == Ok(g)
    requires !IsPortrait(orientation)
    requires ExtractData(sheet, r, range, orientation) == Ok(t)
    ensures g.startRow <= g.endRow
    ensures t == Landscape(sheet, r, g.startRow, g.endRow, g.startCol)
  {
    ExtractAccepted(sheet, r, range, orientation, g);
  }
}

=== FILE: output.dfy ===
/**
  The two response bodies built from an extracted table: the CSV text of
  `extractDataToCsv` and the JSON envelope of `extractDataToJson`, together
  with the request defaults both endpoints apply before extracting.
*/
module Output {
  import opened Results
  import opened Cells
  import opened RangeParser
  import opened Extraction

  /** A cell between double quotes. A quote inside the cell is not escaped. */
  function Quote(cell: string): (q: string)
    ensures |q| == |cell| + 2 && q[0] == '"' && q[|q| - 1] == '"'
  {
    ['"'] + cell + ['"']
  }

  /** The quoted cells of one row joined by commas, without the line end. */
  function CsvLine(row: seq<string>): string {
    if |row| == 0 then ""
    else if |row| == 1 then Quote(row[0])
    else Quote(row[0]) + "," + CsvLine(row[1..])
  }

  /** Each row's line followed by a line feed, the last row included. */
  function Csv(t: Table): string {
    if |t| == 0 then "" else CsvLine(t[0]) + "\n" + Csv(t[1..])
  }

  lemma {:induction false} CsvLineAppend(row: seq<string>, cell: string)
    requires |row| > 0
    ensures CsvLine(row + [cell]) == CsvLine(row) + "," + Quote(cell)
    decreases |row|
  {
    var longer := row + [cell];
    assert longer[1..] == row[1..] + [cell];
    if |row| > 1 {
      CsvLineAppend(row[1..], cell);
    }
  }

  lemma {:induction false} CsvAppend(t: Table, row: seq<string>)
    ensures Csv(t + [row]) == Csv(t) + CsvLine(row) + "\n"
    decreases |t|
  {
    if |t| > 0 {
      assert (t + [row])[1..] == t[1..] + [row];
      CsvAppend(t[1..], row);
    } else {
      assert (t + [row])[1..] == [];
    }
  }

  /** The line of the first `j + 1` cells extends the line of the first `j`. */
  lemma LineStep(row: seq<string>, j: nat)
    requires j < |row|
    ensures CsvLine(row[..j + 1]) == CsvLine(row[..j]) + (if j > 0 then "," else "") + Quote(row[j])
  {
    if j > 0 {
      assert row[..j + 1] == row[..j] + [row[j]];
      CsvLineAppend(row[..j], row[j]);
    } else {
      assert row[..1] == [row[0]];
    }
  }

  /**
    The inner loop of `extractDataToCsv`: each cell of the row is appended
    between quotes, followed by a comma unless it is the row's last, and
    then the line feed.
  */
  method AppendRow(before: string, row: seq<string>) returns (csv: string)
    ensures csv == before + CsvLine(row) + "\n"
  {
    csv := before;
    var columns := |row|;
    var j := 0;
    while j < columns
      invariant 0 <= j <= columns
      invariant csv == before + CsvLine(row[..j]) + (if 0 < j < columns then "," else "")
    {
      LineStep(row, j);
      csv := csv + Quote(row[j]);
      if j < columns - 1 {
        csv := csv + ",";
      }
      j := j + 1;
    }
    assert row[..j] == row;
    csv := csv + "\n";
  }

  /** The `StringBuilder` loop of `extractDataToCsv` over the rows of the table. */
  method BuildCsv(data: Table) returns (csv: string)
    ensures csv == Csv(data)
  {
    csv := "";
    var i := 0;
    while i < |data|
      invariant 0 <= i <= |data|
      invariant csv == Csv(data[..i])
    {
      csv := AppendRow(csv, data[i]);
      assert data[..i + 1] == data[..i] + [data[i]];
      CsvAppend(data[..i], data[i]);
      i := i + 1;
    }
    assert data[..i] == data;
  }

  /** No cell of the table holds a line feed. */
  predicate SingleLineCells(t: Table) {
    forall k, j :: 0 <= k < |t| && 0 <= j < |t[k]| ==> '\n' !in t[k][j]
  }

  lemma {:induction false} LineHasNoFeed(row: seq<string>)
    requires forall j :: 0 <= j < |row| ==> '\n' !in row[j]
    ensures '\n' !in CsvLine(row)
    decreases |row|
  {
    if |row| > 1 {
      LineHasNoFeed(row[1..]);
    }
  }

  /** With single-line cells, the CSV text holds exactly one line feed per row. */
  lemma {:induction false} LineFeedPerRow(t: Table)
    requires SingleLineCells(t)
    ensures multiset(Csv(t))['\n'] == |t|
    decreases |t|
  {
    if |t| > 0 {
      LineHasNoFeed(t[0]);
      assert SingleLineCells(t[1..]) by {
        forall k, j | 0 <= k < |t[1..]| && 0 <= j < |t[1..][k]|
          ensures '\n' !in t[1..][k][j]
        {
          assert t[1..][k] == t[k + 1];
        }
      }
      LineFeedPerRow(t[1..]);
      assert Csv(t) == CsvLine(t[0]) + "\n" + Csv(t[1..]);
      assert multiset(Csv(t)) == multiset(CsvLine(t[0])) + multiset("\n") + multiset(Csv(t[1..]));
    }
  }

  /** Reads one quoted field at the head of `s`: the text up to the next quote, and what follows the closing quote. */
  function ReadField(s: string): (res: Option<(string, string)>)
    ensures res.Some? ==> |res.value.1| < |s|
  {
    if |s| == 0 || s[0] != '"' then None
    else
      var close := IndexOf(s[1..], '"');
      if close < 0 then None else Some((s[1..1 + close], s[close + 2..]))
  }

  /** Reads the comma-separated quoted fields of one line, through its line feed. */
  function ReadFields(s: string): (res: Option<(seq<string>, string)>)
    ensures res.Some? ==> |res.value.1| < |s|
    decreases |s|
  {
    match ReadField(s)
    case None => None
    case Some((cell, rest)) =>
      if |rest| > 0 && rest[0] == '\n' then Some(([cell], rest[1..]))
      else if |rest| > 0 && rest[0] == ',' then
        match ReadFields(rest[1..])
        case None => None
        case Some((cells, after)) => Some(([cell] + cells, after))
      else None
  }

  /** Reads one line: an empty line is a row without cells. */
  function ReadLine(s: string): (res: Option<(seq<string>, string)>)
    ensures res.Some? ==> |res.value.1| < |s|
  {
    if |s| > 0 && s[0] == '\n' then Some(([], s[1..])) else ReadFields(s)
  }

  /** A reader for the CSV the extractor writes: lines of quoted, unescaped fields. */
  function DecodeCsv(s: string): (t: Option<Table>)
    decreases |s|
  {
    if |s| == 0 then Some([])
    else
      match ReadLine(s)
      case None => None
      case Some((row, rest)) =>
        match DecodeCsv(rest)
        case None => None
        case Some(rows) => Some([row] + rows)
  }

  /** No cell of the table holds a double quote. */
  predicate QuoteFree(t: Table) {
    forall k, j :: 0 <= k < |t| && 0 <= j < |t[k]| ==> '"' !in t[k][j]
  }

  lemma ReadQuoted(cell: string, rest: string)
    requires '"' !in cell
    ensures ReadField(Quote(cell) + rest) == Some((cell, rest))
  {
    var s := Quote(cell) + rest;
    assert s[1..] == cell + ['"'] + rest;
    var close := IndexOf(s[1..], '"');
    assert s[1..][|cell|] == '"';
    assert close == |cell|;
    assert s[1..1 + close] == cell;
    assert s[close + 2..] == rest;
  }

  /** A quoted cell followed by the line feed ends the line. */
  lemma ReadLastField(cell: string, rest: string)
    requires '"' !in cell
    ensures ReadFields(Quote(cell) + ("\n" + rest)) == Some(([cell], rest))
  {
    ReadQuoted(cell, "\n" + rest);
    assert ("\n" + rest)[1..] == rest;
  }

  /** A quoted cell followed by a comma is the first of the line's cells. */
  lemma ReadNextField(cell: string, tail: string, cells: seq<string>, rest: string)
    requires '"' !in cell
    requires ReadFields(tail) == Some((cells, rest))
    ensures ReadFields(Quote(cell) + ("," + tail)) == Some(([cell] + cells, rest))
  {
    ReadQuoted(cell, "," + tail);
    assert ("," + tail)[1..] == tail;
  }

  lemma {:induction false} ReadFieldsOf(row: seq<string>, rest: string)
    requires |row| > 0
    requires forall j :: 0 <= j < |row| ==> '"' !in row[j]
    ensures ReadFields(CsvLine(row) + "\n" + rest) == Some((row, rest))
    decreases |row|
  {
    if |row| == 1 {
      assert CsvLine(row) + "\n" + rest == Quote(row[0]) + ("\n" + rest);
      ReadLastField(row[0], rest);
      assert row == [row[0]];
    } else {
      var tail := CsvLine(row[1..]) + "\n" + rest;
      assert CsvLine(row) + "\n" + rest == Quote(row[0]) + ("," + tail);
      ReadFieldsOf(row[1..], rest);
      ReadNextField(row[0], tail, row[1..], rest);
      assert [row[0]] + row[1..] == row;
    }
  }

  lemma ReadLineOf(row: seq<string>, rest: string)
    requires forall j :: 0 <= j < |row| ==> '"' !in row[j]
    ensures ReadLine(CsvLine(row) + "\n" + rest) == Some((row, rest))
  {
    if |row| == 0 {
      assert CsvLine(row) + "\n" + rest == "\n" + rest;
      assert ("\n" + rest)[1..] == rest;
    } else {
      ReadFieldsOf(row, rest);
      assert Quote(row[0])[0] == '"';
      if |row| == 1 {
        assert (CsvLine(row) + "\n" + rest)[0] == '"';
      } else {
        assert (CsvLine(row) + "\n" + rest)[0] == Quote(row[0])[0];
      }
    }
  }

  /** The CSV text reads back as the table whenever no cell holds a double quote. */
  lemma {:induction false} CsvRoundTrip(t: Table)
    requires QuoteFree(t)
    ensures DecodeCsv(Csv(t)) == Some(t)
    decreases |t|
  {
    if |t| > 0 {
      ReadLineOf(t[0], Csv(t[1..]));
      assert QuoteFree(t[1..]) by {
        forall k, j | 0 <= k < |t[1..]| && 0 <= j < |t[1..][k]|
          ensures '"' !in t[1..][k][j]
        {
          assert t[1..][k] == t[k + 1];
        }
      }
      CsvRoundTrip(t[1..]);
      assert [t[0]] + t[1..] == t;
    }
  }

  /**
    Because quotes are not escaped, a cell holding `","` is written exactly
    as two cells would be, and the text reads back as the two cells.
  */
  lemma UnescapedQuoteSplitsCell()
    ensures Csv([["a\",\"b"]]) == Csv([["a", "b"]])
    ensures DecodeCsv(Csv([["a\",\"b"]])) == Some([["a", "b"]])
  {
    assert Csv([["a\",\"b"]]) == "\"a\",\"b\"\n";
    assert Csv([["a", "b"]]) == "\"a\",\"b\"\n";
    CsvRoundTrip([["a", "b"]]);
  }

  /** The JSON body: `rows`, `cols` and the `items` array of rows. */
  datatype Envelope = Envelope(rows: nat, cols: nat, items: Table)

  /** `rows` counts the rows; `cols` is the first row's width, or 0 without rows. */
  function JsonEnvelope(data: Table): (e: Envelope)
    ensures e.items == data && e.rows == |data|
    ensures e.rows == 0 ==> e.cols == 0
    ensures Rectangular(data) ==> forall k :: 0 <= k < |data| ==> |data[k]| == e.cols
  {
    Envelope(|data|, if |data| > 0 then |data[0]| else 0, data)
  }

  /** The number of cells across all rows. */
  function TotalCells(t: Table): nat {
    if |t| == 0 then 0 else |t[0]| + TotalCells(t[1..])
  }

  /** For a rectangular table, `rows` times `cols` counts every cell. */
  lemma {:induction false} EnvelopeCountsCells(data: Table)
    requires Rectangular(data)
    ensures TotalCells(data) == JsonEnvelope(data).rows * JsonEnvelope(data).cols
    decreases |data|
  {
    if |data| > 1 {
      assert Rectangular(data[1..]) by {
        forall k | 0 <= k < |data[1..]|
          ensures |data[1..][k]| == |data[1..][0]|
        {
          assert data[1..][k] == data[k + 1];
        }
      }
      EnvelopeCountsCells(data[1..]);
      assert |data[1..][0]| == |data[0]|;
    } else if |data| == 1 {
      assert TotalCells(data[1..]) == 0;
    }
  }

  /** A missing `sheetRange` is read as the empty text. */
  function RangeOrDefault(range: Option<string>): (s: string)
    ensures range.Some? ==> s == range.value
    ensures range.None? ==> s == ""
  {
    if range.None? then "" else range.value
  }

  /** A missing or empty `orientation` is read as "portrait". */
  function OrientationOrDefault(orientation: Option<string>): (o: string)
    ensures o != ""
    ensures orientation.Some? && orientation.value != "" ==> o == orientation.value
    ensures orientation.None? || orientation == Some("") ==> o == "portrait"
  {
    if orientation.None? || orientation.value == "" then "portrait" else orientation.value
  }

  /** `extractDataToJson` after the workbook and sheet are in hand. */
  function ExtractToJson(sheet: Sheet, r: Renderer, range: Option<string>, orientation: Option<string>): (res: Result<Envelope, Error>)
    ensures res.Err? <==> CheckRequest(RangeOrDefault(range), OrientationOrDefault(orientation)).Err?
    ensures res.Err? ==> res.error == CheckRequest(RangeOrDefault(range), OrientationOrDefault(orientation)).error
    ensures res.Ok? ==> res.value.rows == |res.value.items|
    ensures res.Ok? ==> forall k :: 0 <= k < res.value.rows ==> |res.value.items[k]| == res.value.cols
    ensures res.Ok? ==> ExtractData(sheet, r, RangeOrDefault(range), OrientationOrDefault(orientation)) == Ok(res.value.items)
  {
    match ExtractData(sheet, r, RangeOrDefault(range), OrientationOrDefault(orientation))
    case Err(e) => Err(e)
    case Ok(data) => Ok(JsonEnvelope(data))
  }

  /** `extractDataToCsv` after the workbook and sheet are in hand. */
  function ExtractToCsv(sheet: Sheet, r: Renderer, range: Option<string>, orientation: Option<string>): (res: Result<string, Error>)
    ensures res.Err? <==> CheckRequest(RangeOrDefault(range), OrientationOrDefault(orientation)).Err?
    ensures res.Err? ==> res.error == CheckRequest(RangeOrDefault(range), OrientationOrDefault(orientation)).error
    ensures res.Ok? ==> res.value == Csv(ExtractData(sheet, r, RangeOrDefault(range), OrientationOrDefault(orientation)).value)
  {
    match ExtractData(sheet, r, RangeOrDefault(range), OrientationOrDefault(orientation))
    case Err(e) => Err(e)
    case Ok(data) => Ok(Csv(data))
  }

  /**
    The two endpoints agree: the CSV body is the JSON `items` written as
    CSV, so with single-line cells it has one line feed per JSON row.
  */
  lemma EndpointsAgree(sheet: Sheet, r: Renderer, range: Option<string>, orientation: Option<string>)
    ensures ExtractToCsv(sheet, r, range, orientation).Ok? <==> ExtractToJson(sheet, r, range, orientation).Ok?
    ensures ExtractToJson(sheet, r, range, orientation).Ok? ==>
              ExtractToCsv(sheet, r, range, orientation).value == Csv(ExtractToJson(sheet, r, range, orientation).value.items)
    ensures ExtractToJson(sheet, r, range, orientation).Ok? && SingleLineCells(ExtractToJson(sheet, r, range, orientation).value.items) ==>
              multiset(ExtractToCsv(sheet, r, range, orientation).value)['\n'] == ExtractToJson(sheet, r, range, orientation).value.rows
  {
    var json := ExtractToJson(sheet, r, range, orientation);
    if json.Ok? && SingleLineCells(json.value.items) {
      LineFeedPerRow(json.value.items);
    }
  }

  /**
    The shape the envelope reports: a portrait result is as wide as the
    column range, and a landscape result has one row per row of the range.
  */
  lemma EnvelopeShape(sheet: Sheet, r: Renderer, range: string, orientation: string)
    requires CheckRequest(range, orientation).Ok?
    ensures var g := CheckRequest(range, orientation).value;
            var e := JsonEnvelope(ExtractData(sheet, r, range, orientation).value);
            && (IsPortrait(orientation) && e.rows > 0 ==> e.cols == g.endCol - g.startCol + 1)
            && (!IsPortrait(orientation) ==> e.rows == g.endRow - g.startRow + 1)
  {
    var g := CheckRequest(range, orientation).value;
    var t := ExtractData(sheet, r, range, orientation).value;
    if IsPortrait(orientation) && |t| > 0 {
      assert Emits(sheet, r, g.startRow + 0, g.startCol, g.endCol - g.startCol + 1, t[0]);
    }
  }

  /** With no `sheetRange` the request is refused as malformed. */
  lemma MissingRangeIsRefused(sheet: Sheet, r: Renderer, orientation: Option<string>)
    ensures ExtractToJson(sheet, r, None, orientation) == Err(InvalidRangeSyntax)
    ensures ExtractToCsv(sheet, r, None, orientation) == Err(InvalidRangeSyntax)
  {
    assert MatchEntire("").None?;
  }

  /** With no `orientation`, or an empty one, the request is served as portrait, whatever the case of the word. */
  lemma MissingOrientationIsPortrait(sheet: Sheet, r: Renderer, range: Option<string>, orientation: Option<string>)
    requires orientation.None? || orientation == Some("")
    ensures IsPortrait(OrientationOrDefault(orientation))
    ensures ExtractToJson(sheet, r, range, orientation) == ExtractToJson(sheet, r, range, Some("PORTRAIT"))
  {
    OrientationCase();
    OrientationClassDecides(sheet, r, RangeOrDefault(range), "portrait", "PORTRAIT");
  }
}

=== FILE: range_parser.dfy ===
/**
  Parsing and validation of a sheet range such as "A1:D10", and the
  orientation checks made before any cell is read. The regular expression
  `[A-Z]+\d+:[A-Z]+\d+` is matched against the whole string; the four parts
  are then picked out with `find` calls, converted to 0-based indices and
  checked for order.
*/
module RangeParser {
  import opened Results
  import opened ColumnLetters

  predicate IsDigit(c: char) {
    '0' <= c <= '9'
  }

  predicate IsDigitRun(s: string) {
    forall i :: 0 <= i < |s| ==> IsDigit(s[i])
  }

  /** The two character classes of the range pattern: `[A-Z]` and `\d`. */
  datatype CharClass = Upper | Digit

  predicate InClass(k: CharClass, c: char) {
    match k
    case Upper => IsUpper(c)
    case Digit => IsDigit(c)
  }

  /** The end of the longest run of class-`k` characters that starts at position `i`. */
  function RunEnd(s: string, i: nat, k: CharClass): (j: nat)
    requires i <= |s|
    ensures i <= j <= |s|
    ensures forall p :: i <= p < j ==> InClass(k, s[p])
    ensures j < |s| ==> !InClass(k, s[j])
    decreases |s| - i
  {
    if i < |s| && InClass(k, s[i]) then RunEnd(s, i + 1, k) else i
  }

  /** A maximal run is determined by where it starts. */
  lemma RunEndIs(s: string, i: nat, j: nat, k: CharClass)
    requires i <= j <= |s|
    requires forall p :: i <= p < j ==> InClass(k, s[p])
    requires j < |s| ==> !InClass(k, s[j])
    ensures RunEnd(s, i, k) == j
  {
  }

  /** The four parts of a range expression: start letters and digits, then end letters and digits. */
  datatype RangeTokens = RangeTokens(startLetters: string, startDigits: string, endLetters: string, endDigits: string)

  /** The parts of a string that `[A-Z]+\d+:[A-Z]+\d+` matches. */
  predicate WellFormed(t: RangeTokens) {
    && |t.startLetters| > 0 && IsLetterRun(t.startLetters)
    && |t.startDigits| > 0 && IsDigitRun(t.startDigits)
    && |t.endLetters| > 0 && IsLetterRun(t.endLetters)
    && |t.endDigits| > 0 && IsDigitRun(t.endDigits)
  }

  /** The text a range expression is written as. */
  function Spell(t: RangeTokens): string {
    t.startLetters + t.startDigits + [':'] + t.endLetters + t.endDigits
  }

  /**
    `Regex("[A-Z]+\\d+:[A-Z]+\\d+").matchEntire(s)`. Letters, digits and the
    colon are disjoint classes, so a match splits the string in exactly one
    way, found by reading maximal runs.
  */
  function MatchEntire(s: string): (m: Option<RangeTokens>)
    ensures m.Some? ==> WellFormed(m.value) && Spell(m.value) == s
  {
    var a := RunEnd(s, 0, Upper);
    var b := RunEnd(s, a, Digit);
    if 0 < a < b < |s| && s[b] == ':' then
      var c := RunEnd(s, b + 1, Upper);
      var d := RunEnd(s, c, Digit);
      if b + 1 < c < d == |s| then
        var t := RangeTokens(s[..a], s[a..b], s[b + 1..c], s[c..d]);
        assert Spell(t) == s by {
          assert s == s[..a] + s[a..b] + [s[b]] + s[b + 1..c] + s[c..d];
        }
        Some(t)
      else None
    else None
  }

  /** Where each part of a well-formed range sits in its spelling, and which class its characters are in. */
  lemma SpellLayout(t: RangeTokens)
    requires WellFormed(t)
    ensures var s := Spell(t);
            var a := |t.startLetters|;
            var b := a + |t.startDigits|;
            var c := b + 1 + |t.endLetters|;
            && |s| == c + |t.endDigits|
            && s[..a] == t.startLetters && s[a..b] == t.startDigits && s[b] == ':'
            && s[b + 1..c] == t.endLetters && s[c..] == t.endDigits
            && (forall p :: 0 <= p < a ==> IsUpper(s[p]))
            && (forall p :: a <= p < b ==> IsDigit(s[p]))
            && (forall p :: b + 1 <= p < c ==> IsUpper(s[p]))
            && (forall p :: c <= p < |s| ==> IsDigit(s[p]))
  {
    var s := Spell(t);
    var a := |t.startLetters|;
    var b := a + |t.startDigits|;
    var c := b + 1 + |t.endLetters|;
    assert s[..a] == t.startLetters;
    assert s[a..b] == t.startDigits;
    assert s[b + 1..c] == t.endLetters;
    assert s[c..] == t.endDigits;
    forall p | 0 <= p < a
      ensures IsUpper(s[p])
    {
      assert s[p] == t.startLetters[p];
    }
    forall p | a <= p < b
      ensures IsDigit(s[p])
    {
      assert s[p] == t.startDigits[p - a];
    }
    forall p | b + 1 <= p < c
      ensures IsUpper(s[p])
    {
      assert s[p] == t.endLetters[p - b - 1];
    }
    forall p | c <= p < |s|
      ensures IsDigit(s[p])
    {
      assert s[p] == t.endDigits[p - c];
    }
  }

  /** Every string of the pattern's language is matched, and split into the parts it was written from. */
  lemma MatchEntireComplete(t: RangeTokens)
    requires WellFormed(t)
    ensures MatchEntire(Spell(t)) == Some(t)
  {
    var s := Spell(t);
    var a := |t.startLetters|;
    var b := a + |t.startDigits|;
    var c := b + 1 + |t.endLetters|;
    SpellLayout(t);
    RunEndIs(s, 0, a, Upper);
    RunEndIs(s, a, b, Digit);
    RunEndIs(s, b + 1, c, Upper);
    RunEndIs(s, c, |s|, Digit);
    assert s[c..|s|] == t.endDigits;
    assert RangeTokens(s[..a], s[a..b], s[b + 1..c], s[c..|s|]) == t;
  }

  /** Java `String.indexOf(char)`: the first position holding `c`, or -1. */
  function IndexOf(s: string, c: char): (i: int)
    ensures -1 <= i < |s|
    ensures i >= 0 ==> s[i] == c && forall p :: 0 <= p < i ==> s[p] != c
    ensures i == -1 ==> forall p :: 0 <= p < |s| ==> s[p] != c
  {
    if |s| == 0 then -1
    else if s[0] == c then 0
    else var i := IndexOf(s[1..], c); if i == -1 then -1 else i + 1
  }

  /** Kotlin `Regex(k+).find(s, from)`: the leftmost, longest run of class `k` at or after `from`. */
  function Find(s: string, from: nat, k: CharClass): (m: Option<string>)
    decreases |s| - from
  {
    if from >= |s| then None
    else if InClass(k, s[from]) then Some(s[from..RunEnd(s, from, k)])
    else Find(s, from + 1, k)
  }

  /** `Find` passes over characters outside the class. */
  lemma {:induction false} FindSkips(s: string, from: nat, to: nat, k: CharClass)
    requires from <= to <= |s|
    requires forall p :: from <= p < to ==> !InClass(k, s[p])
    ensures Find(s, from, k) == Find(s, to, k)
    decreases |s| - from
  {
    if from < to {
      FindSkips(s, from + 1, to, k);
    }
  }

  /** `Find` returns the whole maximal run it lands on. */
  lemma FindRun(s: string, i: nat, j: nat, k: CharClass)
    requires i < j <= |s|
    requires forall p :: i <= p < j ==> InClass(k, s[p])
    requires j < |s| ==> !InClass(k, s[j])
    ensures Find(s, i, k) == Some(s[i..j])
  {
    RunEndIs(s, i, j, k);
  }

  /**
    Once the whole string matched, the four `find` calls of the extractor
    (letters and digits from position 0, letters and digits from the colon)
    return exactly the four parts of the match.
  */
  lemma FindsPickTokens(t: RangeTokens)
    requires WellFormed(t)
    ensures var s := Spell(t);
            var colon := IndexOf(s, ':');
            && colon == |t.startLetters| + |t.startDigits|
            && Find(s, 0, Upper) == Some(t.startLetters)
            && Find(s, 0, Digit) == Some(t.startDigits)
            && Find(s, colon, Upper) == Some(t.endLetters)
            && Find(s, colon, Digit) == Some(t.endDigits)
  {
    var s := Spell(t);
    var a := |t.startLetters|;
    var b := a + |t.startDigits|;
    var c := b + 1 + |t.endLetters|;
    ColonPosition(t);
    FindStartParts(t);
    FindEndParts(t);
  }

  lemma ColonPosition(t: RangeTokens)
    requires WellFormed(t)
    ensures IndexOf(Spell(t), ':') == |t.startLetters| + |t.startDigits|
  {
    var s := Spell(t);
    var a := |t.startLetters|;
    var b := a + |t.startDigits|;
    SpellLayout(t);
    forall p | 0 <= p < b
      ensures s[p] != ':'
    {
      if p < a { assert IsUpper(s[p]); } else { assert IsDigit(s[p]); }
    }
  }

  lemma FindStartParts(t: RangeTokens)
    requires WellFormed(t)
    ensures Find(Spell(t), 0, Upper) == Some(t.startLetters)
    ensures Find(Spell(t), 0, Digit) == Some(t.startDigits)
  {
    var s := Spell(t);
    var a := |t.startLetters|;
    var b := a + |t.startDigits|;
    SpellLayout(t);
    FindRun(s, 0, a, Upper);
    FindSkips(s, 0, a, Digit);
    FindRun(s, a, b, Digit);
  }

  lemma FindEndParts(t: RangeTokens)
    requires WellFormed(t)
    ensures var b := |t.startLetters| + |t.startDigits|;
            && Find(Spell(t), b, Upper) == Some(t.endLetters)
            && Find(Spell(t), b, Digit) == Some(t.endDigits)
  {
    var s := Spell(t);
    var a := |t.startLetters|;
    var b := a + |t.startDigits|;
    var c := b + 1 + |t.endLetters|;
    SpellLayout(t);
    FindSkips(s, b, b + 1, Upper);
    FindRun(s, b + 1, c, Upper);
    FindSkips(s, b, c, Digit);
    FindRun(s, c, |s|, Digit);
    assert s[c..|s|] == s[c..];
  }

  function DigitValue(c: char): (v: nat)
    requires IsDigit(c)
    ensures v <= 9
  {
    (c as int) - ('0' as int)
  }

  /** The value of a run of decimal digits; the last digit is the least significant. */
  function DecimalValue(s: string): nat
    requires IsDigitRun(s)
  {
    if |s| == 0 then 0
    else 10 * DecimalValue(s[..|s| - 1]) + DigitValue(s[|s| - 1])
  }

  /** The shortest decimal numeral of n ("0" for zero). */
  function Decimal(n: nat): (s: string)
    ensures |s| > 0 && IsDigitRun(s)
  {
    var digit := ((n % 10) + '0' as int) as char;
    if n < 10 then [digit] else Decimal(n / 10) + [digit]
  }

  /** Reading back the numeral of n gives n. */
  lemma {:induction false} DecimalRoundTrip(n: nat)
    ensures DecimalValue(Decimal(n)) == n
  {
    var digit := ((n % 10) + '0' as int) as char;
    if n >= 10 {
      DecimalRoundTrip(n / 10);
      var s := Decimal(n);
      assert s[..|s| - 1] == Decimal(n / 10);
    }
  }

  /** Leading zeros do not change the value: "007" reads as 7. */
  lemma {:induction false} LeadingZero(s: string)
    requires IsDigitRun(s)
    ensures IsDigitRun("0" + s)
    ensures DecimalValue("0" + s) == DecimalValue(s)
  {
    if |s| > 0 {
      var prefix := s[..|s| - 1];
      LeadingZero(prefix);
      assert ("0" + s)[..|s|] == "0" + prefix;
    }
  }

  /** Java `Integer.parseInt` on a digit run: a value beyond `IntMax` raises `NumberFormatException`. */
  function ParseInt(s: string): (r: Option<int>)
    requires IsDigitRun(s)
    ensures r.Some? <==> DecimalValue(s) <= IntMax
    ensures r.Some? ==> 0 <= r.value <= IntMax
    ensures r.Some? ==> r.value == DecimalValue(s)
  {
    var v := DecimalValue(s);
    if v <= IntMax then Some(v) else None
  }

  /** Why a request is refused before any cell is read. */
  datatype Error =
    | InvalidRangeSyntax
    | RowNumberTooLarge(digits: string)
    | EndColumnBeforeStart
    | EndRowBeforeStart
    | PortraitNeedsOneRow
    | LandscapeNeedsOneColumn

  /** A parsed range: 0-based inclusive column and row bounds. */
  datatype Range = Range(startCol: int, endCol: int, startRow: int, endRow: int)

  /** Converts the parts of a matched range to 0-based indices and checks their order. */
  function FromTokens(t: RangeTokens): (res: Result<Range, Error>)
    requires WellFormed(t)
    ensures res.Ok? ==> && 0 <= res.value.startCol <= res.value.endCol < IntMax
                        && -1 <= res.value.startRow <= res.value.endRow < IntMax
  {
    var startCol := Index(t.startLetters) - 1;
    var endCol := Index(t.endLetters) - 1;
    var startRow := ParseInt(t.startDigits);
    var endRow := ParseInt(t.endDigits);
    if startRow.None? then Err(RowNumberTooLarge(t.startDigits))
    else if endRow.None? then Err(RowNumberTooLarge(t.endDigits))
    else if endCol < startCol then Err(EndColumnBeforeStart)
    else if endRow.value < startRow.value then Err(EndRowBeforeStart)
    else Ok(Range(startCol, endCol, startRow.value - 1, endRow.value - 1))
  }

  /** The first part of `extractData`: the whole string must match, then its parts are converted and checked. */
  function ParseRange(text: string): (res: Result<Range, Error>)
    ensures res == Err(InvalidRangeSyntax) <==> MatchEntire(text).None?
    ensures res.Ok? ==> && 0 <= res.value.startCol <= res.value.endCol < IntMax
                        && -1 <= res.value.startRow <= res.value.endRow < IntMax
  {
    match MatchEntire(text)
    case None => Err(InvalidRangeSyntax)
    case Some(t) => FromTokens(t)
  }

  /**
    The outcome of parsing a well-formed range, stated on its parts: a row
    number beyond `IntMax` fails first, then a column or row order that is
    reversed; otherwise every bound is the 1-based number minus one.
  */
  lemma ParseWellFormed(t: RangeTokens)
    requires WellFormed(t)
    ensures var res := ParseRange(Spell(t));
            var sr, er := DecimalValue(t.startDigits), DecimalValue(t.endDigits);
            var sc, ec := Index(t.startLetters), Index(t.endLetters);
            && (res.Err? && res.error.RowNumberTooLarge? <==> sr > IntMax || er > IntMax)
            && (res == Err(EndColumnBeforeStart) <==> sr <= IntMax && er <= IntMax && ec < sc)
            && (res == Err(EndRowBeforeStart) <==> sr <= IntMax && er <= IntMax && sc <= ec && er < sr)
            && (res.Ok? <==> sr <= IntMax && er <= IntMax && sc <= ec && sr <= er)
            && (res.Ok? ==> res.value == Range(sc - 1, ec - 1, sr - 1, er - 1))
  {
    MatchEntireComplete(t);
  }

  /** A string spelled from well-formed parts parses as those parts. */
  lemma ParseSpelled(t: RangeTokens, s: string)
    requires WellFormed(t) && Spell(t) == s
    ensures ParseRange(s) == FromTokens(t)
  {
    MatchEntireComplete(t);
  }

  /** The values of the one-letter, one-digit parts the examples below use. */
  lemma ColumnDigits(t: RangeTokens)
    requires WellFormed(t)
    requires |t.startLetters| == |t.startDigits| == |t.endLetters| == |t.endDigits| == 1
    ensures Index(t.startLetters) == LetterValue(t.startLetters[0])
    ensures Index(t.endLetters) == LetterValue(t.endLetters[0])
    ensures DecimalValue(t.startDigits) == DigitValue(t.startDigits[0])
    ensures DecimalValue(t.endDigits) == DigitValue(t.endDigits[0])
  {
    assert t.startLetters[..0] == [] && t.endLetters[..0] == [];
    assert t.startDigits[..0] == [] && t.endDigits[..0] == [];
  }

  /** A single-row range: columns A to C of the first row. */
  lemma SingleRowExample()
    ensures ParseRange("A1:C1") == Ok(Range(0, 2, 0, 0))
  {
    ParseSpelled(RangeTokens("A", "1", "C", "1"), "A1:C1");
    SingleRowTokens();
  }

  lemma SingleRowTokens()
    ensures FromTokens(RangeTokens("A", "1", "C", "1")) == Ok(Range(0, 2, 0, 0))
  {
    ColumnDigits(RangeTokens("A", "1", "C", "1"));
  }

  /** A range whose end column comes before its start column is refused. */
  lemma ReversedColumnsExample()
    ensures ParseRange("C1:A1") == Err(EndColumnBeforeStart)
  {
    ParseSpelled(RangeTokens("C", "1", "A", "1"), "C1:A1");
    ColumnDigits(RangeTokens("C", "1", "A", "1"));
  }

  /** A range whose end row comes before its start row is refused. */
  lemma ReversedRowsExample()
    ensures ParseRange("A2:A1") == Err(EndRowBeforeStart)
  {
    ParseSpelled(RangeTokens("A", "2", "A", "1"), "A2:A1");
    ColumnDigits(RangeTokens("A", "2", "A", "1"));
  }

  /** A dash instead of the colon does not match the pattern. */
  lemma DashExample()
    ensures ParseRange("A1-C1") == Err(InvalidRangeSyntax)
  {
    var s := "A1-C1";
    RunEndIs(s, 0, 1, Upper);
    RunEndIs(s, 1, 2, Digit);
  }

  /** Row "0" passes the pattern and becomes row index -1, which no well-formed sheet holds. */
  lemma RowZeroBecomesMinusOne()
    ensures ParseRange("A0:A0") == Ok(Range(0, 0, -1, -1))
  {
    ParseSpelled(RangeTokens("A", "0", "A", "0"), "A0:A0");
    RowZeroTokens();
  }

  lemma RowZeroTokens()
    ensures FromTokens(RangeTokens("A", "0", "A", "0")) == Ok(Range(0, 0, -1, -1))
  {
    ColumnDigits(RangeTokens("A", "0", "A", "0"));
  }

  /**
    Column runs of eight letters or more all clamp to the same index, so the
    column order check lets a reversed range through: AAAAAAAA comes before
    BAAAAAAA in spreadsheet order, yet "BAAAAAAA1:AAAAAAAA1" parses.
  */
  lemma ClampedColumnsCompareEqual()
    ensures ColumnBefore("AAAAAAAA", "BAAAAAAA")
    ensures ParseRange("BAAAAAAA1:AAAAAAAA1").Ok?
  {
    ParseSpelled(RangeTokens("BAAAAAAA", "1", "AAAAAAAA", "1"), "BAAAAAAA1:AAAAAAAA1");
    ClampedRangeTokensPass();
  }

  lemma ClampedRangeTokensPass()
    ensures FromTokens(RangeTokens("BAAAAAAA", "1", "AAAAAAAA", "1")).Ok?
  {
    assert DecimalValue("1") == 1;
    LongRunsClamp("BAAAAAAA");
    LongRunsClamp("AAAAAAAA");
  }

  /** Java `toLowerCase` on the letters A to Z. */
  function AsciiLower(c: char): (l: char)
    ensures !IsUpper(l)
    ensures IsUpper(c) ==> l as int == c as int + 32
    ensures !IsUpper(c) ==> l == c
  {
    if IsUpper(c) then (c as int + 32) as char else c
  }

  function Lower(s: string): (l: string)
    ensures |l| == |s|
    ensures forall i :: 0 <= i < |s| ==> l[i] == AsciiLower(s[i])
  {
    seq(|s|, i requires 0 <= i < |s| => AsciiLower(s[i]))
  }

  /** `orientation.toLowerCase().equals("portrait")` */
  predicate IsPortrait(orientation: string) {
    Lower(orientation) == "portrait"
  }

  /** `orientation.toLowerCase().equals("landscape")` */
  predicate IsLandscape(orientation: string) {
    Lower(orientation) == "landscape"
  }

  /** The orientation names are matched without regard to case. */
  lemma OrientationCase()
    ensures IsPortrait("portrait") && IsPortrait("Portrait") && IsPortrait("PORTRAIT")
    ensures IsLandscape("landscape") && IsLandscape("LandScape")
    ensures !IsPortrait("landscape") && !IsLandscape("portrait")
    ensures !IsPortrait("") && !IsLandscape("")
  {
    assert Lower("Portrait") == "portrait";
    assert Lower("PORTRAIT") == "portrait";
    assert Lower("LandScape") == "landscape";
    assert Lower("landscape") == "landscape";
    assert Lower("portrait") == "portrait";
  }

  /**
    All the checks of `extractData` made before any cell is read: the range
    is parsed, then "portrait" demands a single row and "landscape" a single
    column. Any other orientation is subject to neither check.
  */
  function CheckRequest(text: string, orientation: string): (res: Result<Range, Error>)
    ensures ParseRange(text).Err? ==> res == ParseRange(text)
    ensures res.Ok? ==> res == ParseRange(text)
    ensures res.Ok? && IsPortrait(orientation) ==> res.value.startRow == res.value.endRow
    ensures res.Ok? && IsLandscape(orientation) ==> res.value.startCol == res.value.endCol
    ensures res == Err(PortraitNeedsOneRow) <==>
              ParseRange(text).Ok? && IsPortrait(orientation) && ParseRange(text).value.startRow != ParseRange(text).value.endRow
    ensures res == Err(LandscapeNeedsOneColumn) <==>
              ParseRange(text).Ok? && IsLandscape(orientation) && ParseRange(text).value.startCol != ParseRange(text).value.endCol
    ensures !IsPortrait(orientation) && !IsLandscape(orientation) ==> res == ParseRange(text)
    ensures ParseRange(text).Ok?
            && !(IsPortrait(orientation) && ParseRange(text).value.startRow != ParseRange(text).value.endRow)
            && !(IsLandscape(orientation) && ParseRange(text).value.startCol != ParseRange(text).value.endCol)
            ==> res == ParseRange(text)
    ensures res.Err? && ParseRange(text).Ok? ==> res.error.PortraitNeedsOneRow? || res.error.LandscapeNeedsOneColumn?
  {
    match ParseRange(text)
    case Err(e) => Err(e)
    case Ok(g) =>
      if IsPortrait(orientation) && g.startRow != g.endRow then Err(PortraitNeedsOneRow)
      else if IsLandscape(orientation) && g.startCol != g.endCol then Err(LandscapeNeedsOneColumn)
      else Ok(g)
  }

  /** The exception text each refusal carries, as the source writes it. */
  function Message(e: Error): string {
    match e
    case InvalidRangeSyntax => "The sheet range expression is not valid."
    case RowNumberTooLarge(digits) => "For input string: \"" + digits + "\""
    case EndColumnBeforeStart => "The end column needs to be after the start column."
    case EndRowBeforeStart => "The end column needs to be after the start column."
    case PortraitNeedsOneRow => "If the mode `portrait` is selected, the start and end rows must be the same."
    case LandscapeNeedsOneColumn => "If the mode `landscape` is selected, the start and end columns must be the same."
  }

  /** A reversed row range is reported with the text written for a reversed column range. */
  lemma RowOrderMessageNamesColumns()
    ensures Message(EndRowBeforeStart) == Message(EndColumnBeforeStart)
    ensures ParseRange("A2:A1") == Err(EndRowBeforeStart)
  {
    ReversedRowsExample();
  }

  /** The messages with the reversed-row text naming rows. */
  function IntendedMessage(e: Error): string {
    match e
    case EndRowBeforeStart => "The end row needs to be after the start row."
    case _ => Message(e)
  }

  /** With the corrected text, a reversed row range and a reversed column range are told apart. */
  lemma IntendedMessagesDiffer()
    ensures IntendedMessage(EndRowBeforeStart) != IntendedMessage(EndColumnBeforeStart)
  {
    assert |IntendedMessage(EndRowBeforeStart)| == 44;
    assert |IntendedMessage(EndColumnBeforeStart)| == 50;
  }
}

=== FILE: results.dfy ===
/** Failure-carrying values shared by the other modules. */
module Results {

  /** A value that may be missing: a Java `null` or an absent map entry. */
  datatype Option<+T> = None | Some(value: T)

  /** The outcome of an operation that either produces a value or fails with an error. */
  datatype Result<+T, +E> = Ok(value: T) | Err(error: E)
}

=== FILE: sample_sheet.dfy ===
/**
  The sample workbook used by the project's endpoint tests, read as a sheet
  of text cells A1..C2 with nothing below the second row, and what both
  endpoints return for it.
*/
module SampleSheet {
  import opened Results
  import opened Cells
  import opened RangeParser
  import opened Extraction
  import opened Output

  /** A sheet row holding three text cells in columns A, B and C. */
  function TextRow(a: string, b: string, c: string): Row {
    map[0 := Plain(Text(a)), 1 := Plain(Text(b)), 2 := Plain(Text(c))]
  }

  const Sample: Sheet := map[0 := TextRow("A1", "B1", "C1"), 1 := TextRow("A2", "B2", "C2")]

  const SampleData: Table := [["A1", "B1", "C1"], ["A2", "B2", "C2"]]

  lemma TextRowSlice(a: string, b: string, c: string, r: Renderer)
    ensures Slice(TextRow(a, b, c), r, 0, 3) == [a, b, c]
  {
    SerializeKinds(Some(Plain(Text(a))), r);
    SerializeKinds(Some(Plain(Text(b))), r);
    SerializeKinds(Some(Plain(Text(c))), r);
  }

  /** The portrait scan over columns A..C from the first row takes both rows and stops at the missing third. */
  lemma SamplePortrait(r: Renderer)
    ensures Portrait(Sample, r, 0, 0, 3) == SampleData
  {
    TextRowSlice("A1", "B1", "C1", r);
    TextRowSlice("A2", "B2", "C2", r);
    assert !IsBlank(SampleData[0]) by { assert SampleData[0][0] != ""; }
    assert !IsBlank(SampleData[1]) by { assert SampleData[1][0] != ""; }
    assert Continues(Sample, r, 0, 0, 3) && Continues(Sample, r, 1, 0, 3);
    assert Emits(Sample, r, 0 + 0, 0, 3, SampleData[0]) && Emits(Sample, r, 0 + 1, 0, 3, SampleData[1]);
    PortraitUnique(Sample, r, 0, 0, 3, SampleData);
  }

  lemma PortraitWord()
    ensures IsPortrait("portrait")
  {
    assert Lower("portrait") == "portrait";
  }

  lemma LandscapeWord()
    ensures IsLandscape("landscape") && !IsPortrait("landscape")
  {
    assert Lower("landscape") == "landscape";
  }

  lemma SampleRequest()
    ensures CheckRequest("A1:C1", "portrait") == Ok(Range(0, 2, 0, 0))
  {
    SingleRowExample();
    PortraitWord();
  }

  lemma SampleExtract(r: Renderer)
    ensures ExtractData(Sample, r, "A1:C1", "portrait") == Ok(SampleData)
  {
    SampleRequest();
    PortraitWord();
    ExtractAccepted(Sample, r, "A1:C1", "portrait", Range(0, 2, 0, 0));
    ScanPortrait(Sample, r, Range(0, 2, 0, 0), "portrait");
    SamplePortrait(r);
  }

  /** The JSON test: range A1:C1 with the default orientation gives two rows of three columns. */
  lemma SampleJson(r: Renderer)
    ensures ExtractToJson(Sample, r, Some("A1:C1"), None) == Ok(Envelope(2, 3, SampleData))
  {
    SampleExtract(r);
  }

  lemma CsvOfTwoRows(a: seq<string>, b: seq<string>)
    ensures Csv([a, b]) == CsvLine(a) + "\n" + CsvLine(b) + "\n"
  {
    assert [a, b][1..] == [b];
    assert [b][1..] == [];
    assert Csv([b]) == CsvLine(b) + "\n" + Csv([]);
    assert Csv([a, b]) == CsvLine(a) + "\n" + Csv([b]);
  }

  lemma CsvLineOfThree(a: string, b: string, c: string)
    ensures CsvLine([a, b, c]) == Quote(a) + "," + Quote(b) + "," + Quote(c)
  {
    assert [a, b, c][1..] == [b, c];
    assert [b, c][1..] == [c];
    assert CsvLine([b, c]) == Quote(b) + "," + CsvLine([c]);
    assert CsvLine([a, b, c]) == Quote(a) + "," + CsvLine([b, c]);
  }

  lemma SampleCsvText()
    ensures Csv(SampleData) == "\"A1\",\"B1\",\"C1\"\n\"A2\",\"B2\",\"C2\"\n"
  {
    CsvOfTwoRows(["A1", "B1", "C1"], ["A2", "B2", "C2"]);
    CsvLineOfThree("A1", "B1", "C1");
    CsvLineOfThree("A2", "B2", "C2");
  }

  /** The CSV test: the same request writes one quoted line per row. */
  lemma SampleCsv(r: Renderer)
    ensures ExtractToCsv(Sample, r, Some("A1:C1"), None) == Ok("\"A1\",\"B1\",\"C1\"\n\"A2\",\"B2\",\"C2\"\n")
  {
    SampleExtract(r);
    SampleCsvText();
  }

  lemma EmptyExtract(r: Renderer)
    ensures ExtractData(map[], r, "A1:C1", "portrait") == Ok([])
  {
    SampleRequest();
    PortraitWord();
    ExtractAccepted(map[], r, "A1:C1", "portrait", Range(0, 2, 0, 0));
    ScanPortrait(map[], r, Range(0, 2, 0, 0), "portrait");
  }

  /** On a sheet without rows the portrait scan finds nothing, and the counts are both 0. */
  lemma EmptySheetJson(r: Renderer)
    ensures ExtractToJson(map[], r, Some("A1:C1"), None) == Ok(Envelope(0, 0, []))
  {
    EmptyExtract(r);
  }

  lemma ColumnRangeRequest()
    ensures CheckRequest("A1:A2", "landscape") == Ok(Range(0, 0, 0, 1))
  {
    ParseSpelled(RangeTokens("A", "1", "A", "2"), "A1:A2");
    ColumnRangeTokens();
    LandscapeWord();
  }

  lemma ColumnRangeTokens()
    ensures FromTokens(RangeTokens("A", "1", "A", "2")) == Ok(Range(0, 0, 0, 1))
  {
    ColumnDigits(RangeTokens("A", "1", "A", "2"));
  }

  lemma SampleColumns(r: Renderer)
    ensures ColumnBlank(Sample, r, 0, 1, 3)
    ensures forall c :: 0 <= c < 3 ==> !ColumnBlank(Sample, r, 0, 1, c)
  {
    TextRowSlice("A1", "B1", "C1", r);
    forall c | 0 <= c < 3
      ensures !ColumnBlank(Sample, r, 0, 1, c)
    {
      assert Slice(Sample[0], r, 0, 3)[c] == CellText(Sample, r, 0, c);
      assert CellText(Sample, r, 0, c) != "";
    }
  }

  /** The landscape scan from column A over the first two rows reads three columns, as nothing lies right of column C. */
  lemma SampleLandscapeTable(r: Renderer)
    ensures Landscape(Sample, r, 0, 1, 0) == SampleData
  {
    SampleColumns(r);
    LandscapeWidthUnique(Sample, r, 0, 1, 0, 3);
    TextRowSlice("A1", "B1", "C1", r);
    TextRowSlice("A2", "B2", "C2", r);
    var t := Landscape(Sample, r, 0, 1, 0);
    assert |t| == 2 && |t[0]| == 3 && |t[1]| == |t[0]|;
    forall k, j | 0 <= k < 2 && 0 <= j < 3
      ensures t[k][j] == SampleData[k][j]
    {
      assert t[k][j] == CellText(Sample, r, k, j);
      assert CellText(Sample, r, k, j) == Slice(Sample[k], r, 0, 3)[j];
    }
    assert t[0] == SampleData[0] && t[1] == SampleData[1];
  }

  lemma SampleLandscapeExtract(r: Renderer)
    ensures ExtractData(Sample, r, "A1:A2", "landscape") == Ok(SampleData)
  {
    ColumnRangeRequest();
    LandscapeWord();
    SampleLandscapeTable(r);
  }

  /** Read landscape from column A over rows 1..2, the sample gives the same table as the portrait request. */
  lemma SampleLandscape(r: Renderer)
    ensures ExtractToJson(Sample, r, Some("A1:A2"), Some("landscape")) == Ok(Envelope(2, 3, SampleData))
  {
    SampleLandscapeExtract(r);
  }

  lemma RowZeroRangeTokens()
    ensures FromTokens(RangeTokens("A", "0", "C", "0")) == Ok(Range(0, 2, -1, -1))
  {
    ColumnDigits(RangeTokens("A", "0", "C", "0"));
  }

  lemma RowZeroRequest()
    ensures CheckRequest("A0:C0", "portrait") == Ok(Range(0, 2, -1, -1))
  {
    ParseSpelled(RangeTokens("A", "0", "C", "0"), "A0:C0");
    RowZeroRangeTokens();
    PortraitWord();
  }

  /** Row 0 is accepted as row index -1, which no well-formed sheet holds, so the portrait scan finds nothing. */
  lemma RowZeroFindsNothing(sheet: Sheet, r: Renderer)
    requires WellFormedSheet(sheet)
    ensures ExtractData(sheet, r, "A0:C0", "portrait") == Ok([])
  {
    RowZeroRequest();
    PortraitWord();
    ExtractAccepted(sheet, r, "A0:C0", "portrait", Range(0, 2, -1, -1));
    ScanPortrait(sheet, r, Range(0, 2, -1, -1), "portrait");
    assert -1 !in sheet;
  }
}
